=== FILE: README.md ===
# gomemo backend core in Dafny

This project models the sequential logic underneath the gomemo note-taking
backend (FastAPI, SQLAlchemy, OpenAI glue) and proves properties of it:

- the note store: notes, note metadata and folders as finite maps keyed by
  id, with the note usecases (insert, owner-scoped lookup, partial update with
  the title mirrored into metadata, moving and unlinking the notes of a folder)
  and the folder usecases (listing with note counts, create, rename, delete);
- the YouTube video-id parser, the single-source transcript extractor with
  its error classification, the SRT-to-text reduction and the captions-then-
  speech-to-text fallback chain;
- the string side of the audio object store: the object name of an upload,
  its public URL, the filename read back from a URL, and the YouTube
  passthrough of the copy helper;
- the API-key guard and the order of its checks;
- the note routes: the YouTube ingestion event stream, the lazily generated
  flashcards and quizzes stored on a note, and note deletion (blob first,
  then both rows in one commit).

External services (caption service, speech-to-text, summary and artifact
generators, object store transfers) are function-typed parameters; "never
called" is stated as "the result is the same for any two such functions".
Timestamps and database-assigned ids are parameters. A URL reaches the
video-id parser already parsed (lower-cased host name, path, ordered list of
percent-decoded query pairs). The route-level note queries are modelled as
the booleans `found` and `metadataFound`: whether the query returned the row
with the requested id.

Modules: `Common` (Option, Result), `Strings` (the Python `str` operations
used), `Store` (the records and the database), `Notes`, `Folders`,
`VideoUrl`, `TranscriptExtraction`, `YoutubeTranscript`, `AudioStore`,
`AuthGuard`, `NoteRoutes`.

Points where the code as written is easy to misread; the model follows the
code:

- `extract_audio_filename` is defined twice in the storage module, and the
  later definition wins. It raises on an empty URL and on a trailing slash,
  and otherwise returns the text after the last `/`. It has no YouTube case.
- When captions and speech-to-text both fail, the reported message is the
  fixed text raised at line 101 of the YouTube transcript module. The
  upstream message is lost.
- `parse_qs` drops blank values, so `v=&v=abc` yields `abc`.
- The route imports `generate_transcript` from the single-source transcript
  module, so ingestion uses that extractor, not the fallback chain.

## Model

| member | source | states |
|---|---|---|
| Strings.Strip | app/usecases/generation/youtube_transcript_extraction.py:205-206 | the result is a slice of the line with only whitespace before and after it, and it neither starts nor ends with whitespace |
| Strings.StripEmptyIff | app/usecases/generation/youtube_transcript_extraction.py:205 | a line strips to nothing exactly when it is all whitespace, so blank lines are the ones dropped |
| Strings.Contains | app/usecases/storage/audio_store.py:53 | the `in` test holds exactly when the text occurs at some index |
| Strings.SplitJoinLines | app/usecases/generation/transcript_extraction.py:30 | non-empty, break-free entries joined with newlines split back into the same entries |
| Strings.SplitLinesJoin | app/usecases/generation/transcript_extraction.py:30 | newline-only text that does not end in a newline is re-joined from its lines unchanged |
| Strings.Join | app/usecases/generation/transcript_extraction.py:30 | joining no parts gives the empty text, and a join starts with its first part |
| Strings.JoinSnoc | app/usecases/generation/youtube_transcript_extraction.py:209 | one more part adds the separator and that part at the end |
| Strings.SplitLines | app/usecases/generation/youtube_transcript_extraction.py:201 | no line holds a line break, and there are no lines exactly when the text is empty |
| Strings.JoinNoLineBreak | app/usecases/generation/youtube_transcript_extraction.py:209 | joining break-free parts with a break-free separator gives a single line |
| Strings.LastIndexOf | app/usecases/storage/audio_store.py:113 | the index holds the character and no later index does, or it is -1 and the character is absent |
| Strings.LastIndexOfAppend | app/usecases/storage/audio_store.py:29-30 | the last occurrence in a concatenation is in the right part if it has one, else in the left part |
| Strings.NatToDecimal | app/usecases/storage/audio_store.py:31 | `str(n)` of a non-negative integer is a non-empty string of digits |
| Strings.DecimalRoundTrip | app/route/note.py:246 | reading the rendered numeral back gives the number, so distinct ids give distinct details |
| Notes.AddNote | app/usecases/note/note.py:10-28 | the new note has exactly the given owner, folder and create fields; no other note, metadata row or folder changes |
| Notes.AddMetadata | app/usecases/note/note.py:53-71 | the new metadata row has the given owner and create fields; nothing else changes |
| Notes.GetNoteById | app/usecases/note/note.py:202-203 | a note is returned if and only if the id exists and is owned by the user |
| Notes.GetUnfolderedNotes | app/usecases/note/note.py:196-197 | exactly the user's notes with no folder |
| Notes.GetNotesByFolder | app/usecases/note/note.py:199-200 | exactly the notes whose folder is the given one, of any owner |
| Notes.GetAllNotes | app/usecases/note/note.py:193-194 | exactly the metadata rows of the user |
| Notes.AddThenGet | app/usecases/note/note.py:17-21 | a freshly added note is found by its owner with the create fields intact, and by nobody else |
| Notes.UpdateNote | app/usecases/note/note.py:30-51 | nothing changes and None is returned unless both rows exist for the owner; otherwise set fields take their value, unset fields and owner and folder keep theirs, the title is mirrored into metadata, and no other row changes |
| Notes.UpdateMirrorsTitle | app/usecases/note/note.py:42-44 | after setting the title, the note and its metadata row show the same new title |
| Notes.UpdateIdempotent | app/usecases/note/note.py:41-44 | applying the same partial update twice equals applying it once |
| Notes.EmptyUpdateChangesNothing | app/usecases/note/note.py:41 | an update with no field set returns the note and leaves the store as it was |
| Notes.UpdateKeepsPairing | app/usecases/note/note.py:37-47 | an update keeps every note paired with exactly one metadata row |
| Notes.UpdateMetadata | app/usecases/note/note.py:148-164 | None and no change for a missing row; otherwise only the set fields of that row change |
| Notes.UpdateMetadataIdempotent | app/usecases/note/note.py:155-161 | applying the same metadata update twice equals applying it once |
| Notes.UpdateMetadataKeepsListing | app/usecases/note/note.py:155-161 | a metadata update leaves every user's `get_all_notes` listing to the same notes, and the updated row is listed with the set title or its old one |
| Notes.AddMetadataThenList | app/usecases/note/note.py:53-71 | a new metadata row appears in its owner's `get_all_notes` listing and in no other user's |
| Notes.MoveFolder | app/usecases/note/note.py:166-179 | exactly the notes of the source folder get the new folder and are returned as moved; all other notes, metadata and folders are unchanged |
| Notes.RemoveFolder | app/usecases/note/note.py:181-191 | the folder's notes are unlinked and returned, the folder is deleted, no note is deleted, and the folder is left empty |
| Notes.MoveFolderMovesListing | app/usecases/note/note.py:166-179 | the moved notes are the source folder's listing; afterwards the target folder lists its old notes plus the moved ones and the source lists none |
| Notes.MoveEmptiesSource | app/usecases/note/note.py:172-176 | moving a folder's notes to a different folder leaves it with no note |
| Notes.RemoveFolderUnfolders | app/usecases/note/note.py:183-188 | afterwards a user's unfoldered notes are the old ones plus that user's notes from the removed folder |
| Notes.FolderMovesKeepPairing | app/usecases/note/note.py:166-191 | moving or unlinking notes keeps every note paired with its metadata row |
| Folders.GetAllFolders | app/usecases/note/folder.py:8-9 | exactly the folders owned by the user |
| Folders.CountNotesInFolder | app/usecases/note/folder.py:15 | the count is the number of notes, of any owner, whose folder is the given one |
| Folders.GetAllFoldersWithNoteCount | app/usecases/note/folder.py:11-20 | one entry per folder of the user, each holding that folder and its note count |
| Folders.MoveFolderCounts | app/usecases/note/note.py:172-176 | moving folder A's notes into folder B empties A and adds A's count to B's |
| Folders.CreateFolder | app/usecases/note/folder.py:22-27 | the new folder has the given name, owner and creation time and no update time; nothing else changes |
| Folders.UpdateFolder | app/usecases/note/folder.py:29-36 | None and no change for a missing folder; otherwise only its name and update time change |
| Folders.DeleteFolder | app/usecases/note/folder.py:38-44 | true exactly when the folder existed, which is then gone; its notes are unlinked (no folder) as the `Folder.notes` relationship without a delete cascade does (app/database/models.py:37); no note or metadata row is deleted and other notes keep their folder; false leaves the store as it was |
| Folders.DeleteFolderKeepsLinksValid | app/usecases/note/folder.py:38-44 | after a delete every note's folder still exists |
| Folders.CreateKeepsLinksValid | app/usecases/note/folder.py:22-27 | creating a folder keeps every note's folder existing |
| Folders.CreateThenDelete | app/usecases/note/folder.py:22-44 | in a store whose notes only name existing folders, deleting a just-created folder reports success and restores the store |
| Folders.RenameThenList | app/usecases/note/folder.py:29-36 | a renamed folder is listed among its owner's folders under the new name |
| Folders.RenameTwice | app/usecases/note/folder.py:29-36 | two renames leave what the second alone would leave |
| Folders.FolderListingMatchesCount | app/usecases/note/folder.py:15 | the note count of a folder is the size of its `get_notes_by_folder` listing |
| Folders.CreateThenList | app/usecases/note/folder.py:8-27 | a created folder is listed among its owner's folders under its name |
| VideoUrl.QueryValues | app/usecases/generation/youtube_transcript_extraction.py:24-25 | no values exactly when no pair has the key and a non-blank value; the first value is that of the first such pair |
| VideoUrl.GetVideoId | app/usecases/generation/youtube_transcript_extraction.py:19-26 | `youtu.be` gives the path less its first character; the youtube.com hosts give the first non-blank `v` value, or None if there is none; other hosts give None |
| VideoUrl.ShortLinkRoundTrip | app/usecases/generation/transcript_extraction.py:10-11 | the id written into a short link is parsed back |
| VideoUrl.WatchLinkRoundTrip | app/usecases/generation/transcript_extraction.py:12-14 | the id written into a watch link is parsed back, whatever other parameters precede it |
| VideoUrl.BlankVIsSkipped | app/usecases/generation/transcript_extraction.py:13-14 | a blank `v=` is skipped in favour of a later non-blank one |
| TranscriptExtraction.GenerateTranscript | app/usecases/generation/transcript_extraction.py:17-54 | an InvalidURL failure exactly when the id is missing or empty; success exactly when the fetch yields entries, with their texts joined by newlines; a missing transcript maps to TranscriptUnavailable with its fixed message, any other exception to UnknownError with its own message |
| TranscriptExtraction.InvalidUrlFetchesNothing | app/usecases/generation/transcript_extraction.py:18-26 | with an invalid URL the result does not depend on the caption service |
| TranscriptExtraction.FetchesOnlyTheVideoId | app/usecases/generation/transcript_extraction.py:29 | the caption service is consulted about the video id only |
| TranscriptExtraction.TranscriptLinesAreEntries | app/usecases/generation/transcript_extraction.py:30 | when every entry is one non-empty line, the transcript's lines are the entries in order |
| YoutubeTranscript.KeptLine | app/usecases/generation/youtube_transcript_extraction.py:203-206 | a line contributes at most one paragraph, and that paragraph is the line stripped and trimmed |
| YoutubeTranscript.KeptLineIff | app/usecases/generation/youtube_transcript_extraction.py:203-205 | a line contributes nothing exactly when it is all digits, contains `-->`, or is all whitespace |
| YoutubeTranscript.SrtParagraphs | app/usecases/generation/youtube_transcript_extraction.py:200-206 | at most one paragraph per line, each non-empty with no whitespace at either end |
| YoutubeTranscript.SrtParagraphsAppend | app/usecases/generation/youtube_transcript_extraction.py:201-206 | the paragraphs of two runs of lines are those of the first run followed by those of the second, so each line is judged on its own |
| YoutubeTranscript.SrtParagraphsSnoc | app/usecases/generation/youtube_transcript_extraction.py:201-206 | one more line adds exactly that line's contribution at the end |
| YoutubeTranscript.SrtParagraphsOne | app/usecases/generation/youtube_transcript_extraction.py:203-206 | a single line yields exactly its own contribution |
| YoutubeTranscript.SrtParagraphsFrom | app/usecases/generation/youtube_transcript_extraction.py:201-206 | every paragraph is the kept, stripped form of some line |
| YoutubeTranscript.SrtText | app/usecases/generation/youtube_transcript_extraction.py:199-211 | the caption text is one line, empty or with no whitespace at either end |
| YoutubeTranscript.ExtractSrtText | app/usecases/generation/youtube_transcript_extraction.py:199-211 | the loop yields the paragraphs of SrtParagraphs (characterised line by line by KeptLine, KeptLineIff and SrtParagraphsAppend) joined by single spaces |
| YoutubeTranscript.SrtParagraphsNoLineBreak | app/usecases/generation/youtube_transcript_extraction.py:201-206 | paragraphs taken from split lines hold no line break |
| YoutubeTranscript.StripKeepsNoLineBreak | app/usecases/generation/youtube_transcript_extraction.py:205-206 | stripping a break-free line cannot introduce a break |
| YoutubeTranscript.JoinEnds | app/usecases/generation/youtube_transcript_extraction.py:209 | the text starts with the first paragraph's first character and ends with the last paragraph's last one |
| YoutubeTranscript.OneCueYieldsItsText | app/usecases/generation/youtube_transcript_extraction.py:203-206 | a cue number line and a timing line are dropped, and the cue's text line is kept stripped |
| YoutubeTranscript.GenerateYoutubeTranscript | app/usecases/generation/youtube_transcript_extraction.py:72-121 | an InvalidURL failure exactly when the id is invalid; caption success gives the caption text; otherwise speech-to-text success gives its transcript; otherwise an `Error` failure with the fixed failover text; every success carries the parsed id |
| YoutubeTranscript.InvalidUrlTriesNoSource | app/usecases/generation/youtube_transcript_extraction.py:73-81 | with an invalid URL neither source is consulted |
| YoutubeTranscript.CaptionsSuccessSkipsWhisper | app/usecases/generation/youtube_transcript_extraction.py:83-94 | when captions succeed the speech-to-text fallback is never consulted |
| YoutubeTranscript.FailureHidesUpstreamMessages | app/usecases/generation/youtube_transcript_extraction.py:95-121 | when both stages fail, neither upstream message reaches the result |
| YoutubeTranscript.SucceedsIffSomeSourceDelivers | app/usecases/generation/youtube_transcript_extraction.py:72-121 | success exactly when the id is valid and one of the two sources delivers |
| AudioStore.LastSegment | app/usecases/storage/audio_store.py:113 | `url.split('/')[-1]` holds no slash and is the tail of the URL after a slash, or the whole URL |
| AudioStore.LastSegmentUnique | app/usecases/storage/audio_store.py:113 | any slash-free tail that follows a slash, or is the whole URL, is the last segment |
| AudioStore.ExtractAudioFilename | app/usecases/storage/audio_store.py:108-118 | fails exactly on None, an empty URL or a trailing slash, each with its message; otherwise the non-empty, slash-free last segment; YouTube links are not special |
| AudioStore.SplitExt | app/usecases/storage/audio_store.py:29-30 | stem and extension concatenate to the filename, and the extension is empty or a dot followed by no dot and no slash |
| AudioStore.ObjectName | app/usecases/storage/audio_store.py:28-31 | the stored name splits into the original stem with `_<timestamp>` and the original extension; it contains `_`; it holds no slash when the filename holds none |
| AudioStore.TimestampTagShape | app/usecases/storage/audio_store.py:31 | the tag is `_` followed by digits, with no dot and no slash |
| AudioStore.PublicUrl | app/usecases/storage/audio_store.py:42 | a non-empty, slash-free object name is read back unchanged from its public URL |
| AudioStore.ExtractInvertsPublicUrl | app/usecases/storage/audio_store.py:26-44 | the filename read back from an upload's public URL is the object name it was stored under |
| AudioStore.IsYoutubeLink | app/usecases/storage/audio_store.py:53 | a link is recognised exactly when `youtube.com` or `youtu.be` occurs in it at some index |
| AudioStore.CopyFileFromUrl | app/usecases/storage/audio_store.py:49-54 | a URL containing `youtube.com` or `youtu.be` is returned as is; any other goes through the transfer |
| AudioStore.YoutubeLinkSkipsTransfer | app/usecases/storage/audio_store.py:53-54 | for a YouTube link the transfer is never consulted |
| AudioStore.StoredObjectName | app/usecases/storage/audio_store.py:95-106 | no object name exactly for None, an empty URL, a YouTube link or a trailing slash; any name agrees with the effective extractor |
| AuthGuard.FindUser | app/usecases/auth_guard.py:31 | None exactly when no row has the username; otherwise the first row that has it |
| AuthGuard.VerifyApiKey | app/usecases/auth_guard.py:8-35 | checks run in order (key header, user header, key value, user row), each failure is a 401 with its own message, and success returns a stored user with the header's username |
| AuthGuard.GrantedIff | app/usecases/auth_guard.py:16-35 | access is granted exactly when both headers are present, the key equals the configured one and some user row has the username |
| AuthGuard.UnconfiguredKeyRefusesAll | app/usecases/auth_guard.py:24-28 | with no key configured every request is refused |
| NoteRoutes.IngestYoutube | app/route/note.py:60-115 | the exact event list on each path (transcribing, then summarizing, then creating, each announced by its own progress text); a transcript or summary failure stores nothing; a failed transcript step ends with `Failed to transcribe the YouTube video`, a summary-failure result with `Failed to generate summary`, a summary exception with `Process failed: ` and its message; a summary success adds exactly one note (the user's, no folder, the summary's title, markdown and language, the transcript text, the URL as content URL, no flashcards or quizzes) and its metadata row (the summary's title, category and emoji, stamped now); the stream completes, with the row's JSON text, exactly when transcript, summary and serialization succeed, and a serialization failure ends with `Process failed: ` and its message while both rows stay stored |
| NoteRoutes.IngestKeepsPairing | app/route/note.py:82-108 | ingestion keeps every note paired with exactly one metadata row |
| NoteRoutes.InvalidUrlNeverSummarizes | app/route/note.py:64-67 | a URL with no valid video id fails at the transcript step and the summary generator is never consulted |
| NoteRoutes.SummaryExceptionIsReported | app/route/note.py:114-115 | a summary exception ends the stream with `Process failed: ` and its message, and nothing is stored |
| NoteRoutes.CreateFlashcards | app/route/note.py:323-340 | 404 and no change if the note is not found; a non-empty stored list is served unchanged; otherwise the generator's list for the note's transcript and language is stored and served; a failed generation stores nothing; no other field or note changes |
| NoteRoutes.CreateQuizzes | app/route/note.py:342-359 | the same policy on `quizzes` only |
| NoteRoutes.FlashcardsIdempotent | app/route/note.py:333-340 | after a non-empty generation, the next request serves the same list whatever the generator would return, and changes nothing |
| NoteRoutes.QuizzesIdempotent | app/route/note.py:352-359 | the same idempotence for quizzes |
| NoteRoutes.EmptyFlashcardsRegenerate | app/route/note.py:333 | a stored empty list is answered exactly as no list |
| NoteRoutes.FailedGenerationStoresNothing | app/route/note.py:336-337 | a failed generation leaves the store exactly as it was, for both artifacts |
| NoteRoutes.ArtifactsCommute | app/route/note.py:323-359 | serving flashcards then quizzes, or quizzes then flashcards, gives the same answers and the same store |
| NoteRoutes.DeleteRows | app/route/note.py:242-246 | both rows go in one step with the success detail, or nothing goes when the metadata row was not found |
| NoteRoutes.DeleteNote | app/route/note.py:227-246 | the note is deleted exactly when it and its metadata row are found and its object name is extracted and in the bucket; the blob is removed before any row; a failure leaves the rows; 404 and no change when the note is not found |
| NoteRoutes.BlobGoesFirst | app/route/note.py:238-244 | with the metadata row missing, the blob is already gone and both rows stay |
| NoteRoutes.DeleteKeepsPairing | app/route/note.py:242-244 | a delete keeps every note paired with its metadata row |
| NoteRoutes.ObjectNamesCarryUnderscore | app/usecases/storage/audio_store.py:31 | no name `put_object` gives equals `watch?v=<id>` for an id without `_` |
| NoteRoutes.CopiedNameIsNotWatchSegment | app/usecases/storage/audio_store.py:63-66 | no name `copy_file_from_url` gives (a UUID's text and an extension) equals `watch?v=<id>` |
| NoteRoutes.EmptyUrlNoteIsNotDeleted | app/route/note.py:238 | a note stored with an empty content URL, like the welcome note, can never be deleted |
| NoteRoutes.WatchLinkObjectName | app/route/note.py:238 | for every slash-free id, the name read from its watch link is `watch?v=<id>` |
| NoteRoutes.YoutubeNoteIsNotDeleted | app/route/note.py:238-240 | a note holding a watch link with a slash-free id cannot be deleted while no object has the link's last segment as its name: the object lookup fails and both rows stay |
| NoteRoutes.DeleteNoteIntended | app/route/note.py:227-246 | 404 and no change when the note is not found; deleted exactly when both rows are found and the note has no stored object or its object is in the bucket; a delete removes exactly the two rows with the success detail, anything else leaves the rows; the bucket loses exactly the stored object and nothing when there is none |
| NoteRoutes.IntendedAgreesWithStoredObject | app/route/note.py:238-240 | for a note with a stored object the intended delete is the delete as written |
| NoteRoutes.IntendedDeleteSucceeds | app/route/note.py:238-246 | with both rows present and any stored object in the bucket, the intended delete always succeeds |
| NoteRoutes.WatchLinkIsYoutube | app/usecases/storage/audio_store.py:100 | every watch link is recognised as a YouTube link |
| NoteRoutes.IntendedDeleteOfYoutubeNote | app/route/note.py:238-246 | the intended delete of a note holding any watch link removes its rows and touches no object |
| NoteRoutes.IngestThenDeleteRestores | app/route/note.py:60-246 | once ingesting a YouTube video has stored its note, deleting the new note restores the store and the bucket |

## Left out

- Python `str` operations are modelled on ASCII and Latin-1 characters plus Python's Unicode whitespace and line-break separators. `isdigit` holds for the ASCII digits and the Latin-1 superscripts `¹²³`; other Unicode digits (Arabic-Indic, circled and so on) are not counted.
- `urlparse` and `parse_qs` are not re-implemented. A URL arrives as a lower-cased host name, a path and its decoded query pairs.
- Percent-decoding and the shadowed `unquote` step are left out.
- Database failures (`SQLAlchemyError`, rollback) are left out.
- Ids and timestamps are parameters; the fresh-id requirement stands in for the database's id assignment.
- An explicit JSON `null` sent for a non-nullable update field is left out. Only "set" and "left out" are modelled.
- The route-level note queries are the booleans `found` and `metadataFound`. As written they combine SQLAlchemy expressions with Python `and`, which does not scope by owner.
- The object store is a set of object names. The store's error text for a missing object is the parameter `statError`.
- Uploads (`put_object` I/O) and downloads are left out. Only the object name and public URL are modelled, and the copy transfer is a parameter.
- The server-sent-event framing is left out. The completion event carries the metadata row's JSON text, produced by the parameter `serialize`.
- NoteRoutes.IngestYoutube: app/route/note.py:10 imports `metadata_to_dict` from app/commons/pydantic_to_json.py, which defines only `note_to_dict`, so as written importing the route module raises `ImportError` and none of its routes is reachable. The routes are modelled as if the helper existed. Its serialization of the committed metadata row (app/route/note.py:110) is the parameter `serialize`, which may fail; the model does not decide whether it fails, for example on the row's `datetime`.
- The summary generator is a parameter. As the repository stands, `generate_summary` takes one argument while the route passes two. The call therefore raises `TypeError`, which is the `SummaryRaised` outcome, so every ingestion whose transcript step succeeds ends, as written, with `Process failed: ...`; a failed transcript step still ends with `Failed to transcribe the YouTube video` before the generator is reached.
- The audio ingestion route (app/route/note.py:119-213) and the translation route (app/route/note.py:249-321) are left out. They are chains of foreign calls.
- The update route (app/route/note.py:215-225) is left out. It calls `update_note` without the user id; the usecase itself is modelled.
- `transcript_with_whisper`, `get_srt`'s caption lookup and the HTTP-based `generate_transcript` of the YouTube module are left out. They are network, temp-file and pytube I/O; only the SRT text reduction is modelled.
- `create_welcoming_note`'s text constants are left out. Its empty content URL appears in `NoteRoutes.EmptyUrlNoteIsNotDeleted`.
- The retention sweep `delete_old_notes` has no definition in the source and is not part of this model.
- TranscriptExtraction.GenerateTranscript: assumes that the `except YouTubeTranscriptApi.CouldNotRetrieveTranscript` clause (app/usecases/generation/transcript_extraction.py:39) resolves. In released versions of the caption library that class attribute may not exist; then any fetch failure raises `AttributeError` out of the function instead of mapping to TranscriptUnavailable or UnknownError.
- The usecases and routes are modelled with the columns they read and write: `Note.content_url`, `NoteMetadata.user_id` and `Folder.updated_at`. The ORM classes in app/database/models.py do not all declare them. `Note` has `youtube_link` (models.py:45), although migration 649391dfd01a adds `content_url`, and `NoteMetadata` has no `user_id` (models.py:58-65). The schema mismatch, with the SQLAlchemy errors it would raise, is not modelled.
- Folders.UpdateFolder: stores and lists the new `updated_at`, as app/usecases/note/folder.py:33 writes it. Neither the `Folder` class (app/database/models.py:29-34) nor the initial migration gives `folders` an `updated_at` column, so in the schema shown the attribute would not be persisted.
- `AuthGuard.FindUser` returns the first matching row in the order of the user table; the database's row order is not modelled.

## Findings

| source | as written | input that shows it | evidently intended | confidence | as-written member | corrected member |
|---|---|---|---|---|---|---|
| app/route/note.py:238-240 with app/usecases/storage/audio_store.py:108-118 | `delete_note` always extracts a filename from the note's content URL and deletes that object. The effective `extract_audio_filename` raises on an empty URL and never returns None, so the `if file_name` guard never skips the blob step. | A note with content URL `""` (the welcome note, app/usecases/note/note.py:132), or one ingested from `https://www.youtube.com/watch?v=abc`: the first raises `Empty URL provided`, the second looks up object `watch?v=abc`; no object `put_object` or `copy_file_from_url` stores is named like that, because every `put_object` name carries `_`, which `abc` lacks, and every copied name opens with a UUID's hex digit; only a `put_note_object` upload (app/usecases/storage/note_store.py:26-37) under exactly that name would match. Either way the note and its metadata stay. | Notes without a stored object are deleted without touching the object store. The shadowed definition (app/usecases/storage/audio_store.py:95-106) returns None for YouTube links so that the guard skips them. | not executed | NoteRoutes.DeleteNote, NoteRoutes.EmptyUrlNoteIsNotDeleted, NoteRoutes.YoutubeNoteIsNotDeleted | NoteRoutes.DeleteNoteIntended, NoteRoutes.IntendedAgreesWithStoredObject, NoteRoutes.IntendedDeleteSucceeds, NoteRoutes.IntendedDeleteOfYoutubeNote, NoteRoutes.IngestThenDeleteRestores |

=== FILE: audio_store.dfy ===
/**
 The string side of the audio object store: the name an upload is stored
 under, its public URL, the name read back out of a stored URL, and the
 YouTube passthrough of the copy-from-URL helper. The object store itself is
 not modelled; the download-and-upload path is a parameter.
 */
module AudioStore {
  import opened Common
  import opened Strings

  const BucketName: string := "gomemo"

  const EmptyUrlMessage: string := "Empty URL provided"

  /** The message of the re-raised `ValueError` when the URL ends with a slash. */
  const NoFilenameMessage: string := "Failed to extract filename from URL: Could not extract filename from URL"

  // ---------------------------------------------------------------------------
  // the last path segment

  /** `r` is the part of `s` after index `k`, and the character before it (if any) is a slash. */
  predicate SegmentAt(s: string, r: string, k: int) {
    0 <= k && k + |r| == |s| && s[k..] == r && (k == 0 || s[k - 1] == '/')
  }

  /** `s.split('/')[-1]`: the text after the last slash, or all of `s` when it has none. */
  function LastSegment(s: string): (r: string)
    ensures Excludes(r, '/')
    ensures exists k :: SegmentAt(s, r, k)
  {
    var k := LastIndexOf(s, '/') + 1;
    assert SegmentAt(s, s[k..], k);
    s[k..]
  }

  /** The two facts above pin the segment down: any slash-free tail that follows a slash (or starts `s`) is it. */
  lemma LastSegmentUnique(s: string, r: string, k: int)
    requires Excludes(r, '/') && SegmentAt(s, r, k)
    ensures LastSegment(s) == r
  {
    forall j | k <= j < |s| ensures s[j] != '/' {
      assert s[j] == r[j - k];
    }
    LastIndexOfIs(s, '/', k - 1);
  }

  /**
   The effective `extract_audio_filename` (the later of its two definitions):
   fails on `None` or `""`, fails on a URL ending in `/`, and otherwise returns
   the text after the last slash. It never treats YouTube links specially.
   */
  function ExtractAudioFilename(url: Option<string>): (r: Result<string, string>)
    ensures r.Err? <==> url.None? || url.value == [] || url.value[|url.value| - 1] == '/'
    ensures url.None? || url.value == [] ==> r == Err(EmptyUrlMessage)
    ensures url.Some? && url.value != [] && r.Err? ==> r.error == NoFilenameMessage
    ensures r.Ok? ==> r.value != [] && Excludes(r.value, '/') && exists k :: SegmentAt(url.value, r.value, k)
  {
    if url.None? || url.value == [] then
      Err(EmptyUrlMessage)
    else
      var name := LastSegment(url.value);
      var k :| SegmentAt(url.value, name, k);
      if name == [] then
        Err(NoFilenameMessage)
      else
        assert url.value[|url.value| - 1] == name[|name| - 1];
        Ok(name)
  }

  // ---------------------------------------------------------------------------
  // object names and public URLs

  predicate AllDots(s: string) {
    forall i :: 0 <= i < |s| ==> s[i] == '.'
  }

  /** What `splitext` may return as an extension: nothing, or a dot followed by neither dots nor slashes. */
  predicate IsExtension(e: string) {
    e == [] || (e[0] == '.' && Excludes(e[1..], '.') && Excludes(e, '/'))
  }

  /**
   `os.path.splitext`: splits at the last dot of the last path component,
   unless that component has only dots before it.
   */
  function SplitExt(p: string): (r: (string, string))
    ensures r.0 + r.1 == p
    ensures IsExtension(r.1)
  {
    SplitAt(p, LastIndexOf(p, '/'), LastIndexOf(p, '.'))
  }

  /** The split of `p` given the positions of its last slash and its last dot. */
  function SplitAt(p: string, sep: int, dot: int): (r: (string, string))
    requires -1 <= sep < |p| && -1 <= dot < |p|
    requires dot >= 0 ==> p[dot] == '.'
    requires forall j :: dot < j < |p| ==> p[j] != '.'
    requires forall j :: sep < j < |p| ==> p[j] != '/'
    ensures r.0 + r.1 == p
    ensures IsExtension(r.1)
  {
    if dot > sep && !AllDots(p[sep + 1..dot]) then
      ExtensionShape(p, sep, dot);
      assert p[..dot] + p[dot..] == p;
      (p[..dot], p[dot..])
    else
      (p, [])
  }

  /** The tail from the last dot is a dot followed by no dot and no slash, when no slash follows that dot. */
  lemma ExtensionShape(p: string, sep: int, dot: int)
    requires -1 <= sep < dot < |p| && p[dot] == '.'
    requires forall j :: dot < j < |p| ==> p[j] != '.'
    requires forall j :: sep < j < |p| ==> p[j] != '/'
    ensures IsExtension(p[dot..])
  {
    var ext := p[dot..];
    forall i | 0 <= i < |ext| ensures ext[i] == p[dot + i] {
    }
    forall i | 0 <= i < |ext[1..]| ensures ext[1..][i] != '.' {
      assert ext[1..][i] == p[dot + 1 + i];
    }
  }

  /** `_<timestamp>`, the tag an upload's name carries between its stem and its extension. */
  function TimestampTag(timestamp: nat): string {
    "_" + NatToDecimal(timestamp)
  }

  /**
   The object name of an upload: `<stem>_<timestamp><extension>` of the
   original filename. Split again, it yields the original stem with the tag
   and the original extension; it always carries `_`, and it holds no slash
   when the filename holds none.
   */
  function ObjectName(filename: string, timestamp: nat): (r: string)
    ensures SplitExt(r) == (SplitExt(filename).0 + TimestampTag(timestamp), SplitExt(filename).1)
    ensures '_' in r
    ensures Excludes(filename, '/') ==> Excludes(r, '/')
  {
    var parts := SplitExt(filename);
    var tag := TimestampTag(timestamp);
    TimestampTagShape(timestamp);
    TaggedSplit(filename, tag);
    ExcludesConcat3(parts.0, tag, parts.1, '/');
    assert (parts.0 + tag + parts.1)[|parts.0|] == '_';
    parts.0 + tag + parts.1
  }

  /** The public URL `put_object` returns; a non-empty, slash-free object name is read back from it unchanged. */
  function PublicUrl(endpoint: string, objectName: string): (r: string)
    ensures objectName != [] && Excludes(objectName, '/') ==> ExtractAudioFilename(Some(r)) == Ok(objectName)
  {
    var url := endpoint + "/" + BucketName + "/" + objectName;
    var k := |endpoint| + 8;
    assert url[k - 1] == '/';
    assert url[k..] == objectName;
    if objectName != [] && Excludes(objectName, '/') then
      LastSegmentUnique(url, objectName, k);
      assert objectName[|objectName| - 1] == url[|url| - 1];
      url
    else
      url
  }

  /** Text free of `c` in three pieces gives a concatenation free of `c`. */
  lemma ExcludesConcat3(a: string, b: string, c: string, x: char)
    ensures Excludes(a, x) && Excludes(b, x) && Excludes(c, x) ==> Excludes(a + b + c, x)
  {
    var s := a + b + c;
    forall j | 0 <= j < |s| && Excludes(a, x) && Excludes(b, x) && Excludes(c, x) ensures s[j] != x {
      if j < |a| {
        assert s[j] == a[j];
      } else if j < |a| + |b| {
        assert s[j] == b[j - |a|];
      } else {
        assert s[j] == c[j - |a| - |b|];
      }
    }
  }

  /** A tag that starts with a non-dot and holds no dot and no slash, put before the extension, keeps that extension. */
  lemma {:induction false} TaggedSplit(filename: string, tag: string)
    requires tag != [] && tag[0] != '.' && Excludes(tag, '.') && Excludes(tag, '/')
    ensures var parts := SplitExt(filename);
            SplitExt(parts.0 + tag + parts.1) == (parts.0 + tag, parts.1)
  {
    var parts := SplitExt(filename);
    if parts.1 != [] {
      SplitExtBeforeExtension(parts.0, tag, parts.1);
    } else {
      assert parts.0 == filename;
      assert parts.0 + tag + parts.1 == filename + tag;
      SplitExtNoExtension(filename, tag);
    }
  }

  /** Inserting dot- and slash-free text that starts with a non-dot before an extension keeps that extension. */
  lemma {:induction false} SplitExtBeforeExtension(stem: string, mid: string, ext: string)
    requires ext != [] && IsExtension(ext)
    requires mid != [] && mid[0] != '.' && Excludes(mid, '.') && Excludes(mid, '/')
    ensures SplitExt(stem + mid + ext) == (stem + mid, ext)
  {
    var n := stem + mid + ext;
    forall j | 0 < j < |ext| ensures ext[j] != '.' {
      assert ext[1..][j - 1] == ext[j];
    }
    LastIndexOfIs(ext, '.', 0);
    LastIndexOfIs(ext, '/', -1);
    LastIndexOfIs(mid, '/', -1);
    LastIndexOfAppend(stem, mid, '/');
    LastIndexOfAppend(stem + mid, ext, '.');
    LastIndexOfAppend(stem + mid, ext, '/');
    var d := |stem| + |mid|;
    var sep := LastIndexOf(n, '/');
    assert LastIndexOf(n, '.') == d;
    assert sep == LastIndexOf(stem, '/') < |stem|;
    assert n[sep + 1..d][|stem| - sep - 1] == n[|stem|] == mid[0];
    assert !AllDots(n[sep + 1..d]);
    assert n[..d] == stem + mid;
    assert n[d..] == ext;
    assert SplitAt(n, sep, d) == (stem + mid, ext);
  }

  /** Appending dot- and slash-free text to a name without an extension leaves it without one. */
  lemma {:induction false} SplitExtNoExtension(p: string, mid: string)
    requires SplitExt(p).1 == []
    requires Excludes(mid, '.') && Excludes(mid, '/')
    ensures SplitExt(p + mid) == (p + mid, [])
  {
    var n := p + mid;
    LastIndexOfIs(mid, '.', -1);
    LastIndexOfIs(mid, '/', -1);
    LastIndexOfAppend(p, mid, '.');
    LastIndexOfAppend(p, mid, '/');
    var sep := LastIndexOf(p, '/');
    var dot := LastIndexOf(p, '.');
    assert LastIndexOf(n, '.') == dot && LastIndexOf(n, '/') == sep;
    assert dot > sep ==> AllDots(p[sep + 1..dot]);
    if dot > sep {
      assert n[sep + 1..dot] == p[sep + 1..dot];
    }
    assert SplitAt(n, sep, dot) == (n, []);
  }

  /** The timestamp tag is `_` and digits: it holds neither a dot nor a slash. */
  lemma TimestampTagShape(timestamp: nat)
    ensures var tag := TimestampTag(timestamp);
            tag != [] && tag[0] == '_' && Excludes(tag, '.') && Excludes(tag, '/')
  {
    var digits := NatToDecimal(timestamp);
    var tag := TimestampTag(timestamp);
    forall j | 0 < j < |tag| ensures tag[j] != '.' && tag[j] != '/' {
      assert tag[j] == digits[j - 1];
      assert IsDigitChar(digits[j - 1]);
    }
  }

  /** The name the delete route reads back from a stored object's public URL is the name it was uploaded under. */
  lemma ExtractInvertsPublicUrl(endpoint: string, filename: string, timestamp: nat)
    requires Excludes(filename, '/')
    ensures ExtractAudioFilename(Some(PublicUrl(endpoint, ObjectName(filename, timestamp))))
         == Ok(ObjectName(filename, timestamp))
  {
  }

  // ---------------------------------------------------------------------------
  // YouTube links

  /** The substring test `copy_file_from_url` uses to recognise a YouTube link: either host name occurs somewhere in the URL. */
  predicate IsYoutubeLink(url: string): (b: bool)
    ensures b <==> (exists i :: OccursAt(url, "youtube.com", i)) || (exists i :: OccursAt(url, "youtu.be", i))
  {
    Contains(url, "youtube.com") || Contains(url, "youtu.be")
  }

  /** `copy_file_from_url`: a YouTube link is returned as is; any other URL goes through `transfer` (download, then upload). */
  function CopyFileFromUrl(url: string, transfer: string -> Result<string, string>): (r: Result<string, string>)
    ensures IsYoutubeLink(url) ==> r == Ok(url)
    ensures !IsYoutubeLink(url) ==> r == transfer(url)
  {
    if IsYoutubeLink(url) then Ok(url) else transfer(url)
  }

  /** For a YouTube link no download or upload happens: the transfer is never consulted. */
  lemma YoutubeLinkSkipsTransfer(url: string, t1: string -> Result<string, string>, t2: string -> Result<string, string>)
    requires IsYoutubeLink(url)
    ensures CopyFileFromUrl(url, t1) == CopyFileFromUrl(url, t2) == Ok(url)
  {
  }

  /**
   The object name the delete route was evidently meant to obtain: none for a
   missing or empty URL, none for a YouTube link (whose content is not in the
   bucket), otherwise the last segment when it is non-empty.
   */
  function StoredObjectName(url: Option<string>): (r: Option<string>)
    ensures r.None? <==> url.None? || url.value == [] || IsYoutubeLink(url.value) || url.value[|url.value| - 1] == '/'
    ensures r.Some? ==> ExtractAudioFilename(url) == Ok(r.value)
  {
    if url.None? || url.value == [] || IsYoutubeLink(url.value) then None
    else
      match ExtractAudioFilename(url)
      case Ok(name) => Some(name)
      case Err(_) => None
  }
}

=== FILE: auth_guard.dfy ===
/**
 The API-key guard every protected route depends on: both headers present,
 the key equal to the configured one, and the named user on record. The
 configured key (read from the environment) is a parameter; the user table
 is the sequence of its rows in the order the database returns them.
 */
module AuthGuard {
  import opened Common

  datatype User = User(id: nat, username: string)

  /** An `HTTPException`: status code and detail. */
  datatype AuthError = AuthError(status: int, detail: string)

  const Unauthorized: int := 401

  /** `get_user_by_username`: the first row whose username matches, if any. */
  function FindUser(users: seq<User>, username: string): (r: Option<User>)
    ensures r.None? <==> forall i :: 0 <= i < |users| ==> users[i].username != username
    ensures r.Some? ==> exists i :: 0 <= i < |users| && users[i] == r.value
                                  && forall j :: 0 <= j < i ==> users[j].username != username
    ensures r.Some? ==> r.value.username == username
  {
    if users == [] then None
    else if users[0].username == username then Some(users[0])
    else
      var rest := FindUser(users[1..], username);
      assert forall j :: 1 <= j < |users| ==> users[j] == users[1..][j - 1];
      if rest.Some? then
        var i :| 0 <= i < |users[1..]| && users[1..][i] == rest.value
                 && forall j :: 0 <= j < i ==> users[1..][j].username != username;
        assert users[i + 1] == rest.value;
        rest
      else
        rest
  }

  /**
   `verify_api_key`: the checks in order — key header, user header, key value
   (a missing configured key matches no header), then the user row.
   */
  function VerifyApiKey(apiKey: Option<string>, user: Option<string>, expected: Option<string>,
                        users: seq<User>): (r: Result<User, AuthError>)
    ensures r.Err? ==> r.error.status == Unauthorized
    ensures apiKey.None? ==> r == Err(AuthError(Unauthorized, "API Key is missing"))
    ensures apiKey.Some? && user.None? ==> r == Err(AuthError(Unauthorized, "User ID is missing"))
    ensures apiKey.Some? && user.Some? && apiKey != expected ==>
              r == Err(AuthError(Unauthorized, "Invalid API Key"))
    ensures apiKey.Some? && user.Some? && apiKey == expected && FindUser(users, user.value).None? ==>
              r == Err(AuthError(Unauthorized, "User not found"))
    ensures r.Ok? ==> user.Some? && r.value.username == user.value
                      && exists i :: 0 <= i < |users| && users[i] == r.value
  {
    if apiKey.None? then
      Err(AuthError(Unauthorized, "API Key is missing"))
    else if user.None? then
      Err(AuthError(Unauthorized, "User ID is missing"))
    else if apiKey != expected then
      Err(AuthError(Unauthorized, "Invalid API Key"))
    else
      match FindUser(users, user.value)
      case None => Err(AuthError(Unauthorized, "User not found"))
      case Some(u) => Ok(u)
  }

  /** Access is granted exactly when both headers are sent, the key is the configured one, and the user exists. */
  lemma {:induction false} GrantedIff(apiKey: Option<string>, user: Option<string>, expected: Option<string>,
                                      users: seq<User>)
    ensures VerifyApiKey(apiKey, user, expected, users).Ok? <==>
      && apiKey.Some? && user.Some? && apiKey == expected
      && exists i :: 0 <= i < |users| && users[i].username == user.value
  {
    if apiKey.Some? && user.Some? && apiKey == expected {
      var r := FindUser(users, user.value);
      if r.Some? {
        var i :| 0 <= i < |users| && users[i] == r.value
                 && forall j :: 0 <= j < i ==> users[j].username != user.value;
        assert users[i].username == user.value;
      }
    }
  }

  /** With no key configured, every request is refused. */
  lemma UnconfiguredKeyRefusesAll(apiKey: Option<string>, user: Option<string>, users: seq<User>)
    ensures VerifyApiKey(apiKey, user, None, users).Err?
  {
  }
}

=== FILE: common.dfy ===
/** Optional values and results shared by every module of the model. */
module Common {

  /** Python's `None` or a value. */
  datatype Option<+T> = None | Some(value: T)

  /** A call that returns a value or ends with an error (an exception or a `{"success": False}` dict). */
  datatype Result<+T, +E> = Ok(value: T) | Err(error: E)
}

=== FILE: folders.dfy ===
/**
 Folder usecases: listing a user's folders (with the number of notes in each),
 creating, renaming and deleting a folder. Only the listings filter by owner;
 rename and delete address a folder by id alone.
 */
module Folders {
  import opened Common
  import opened Store
  import Notes

  /** `get_all_folders_usecase`: the folders owned by `userId`. */
  function GetAllFolders(db: Db, userId: nat): (r: map<nat, Folder>)
    ensures forall id :: id in r <==> id in db.folders && db.folders[id].userId == userId
    ensures forall id :: id in r ==> r[id] == db.folders[id]
  {
    map id | id in db.folders && db.folders[id].userId == userId :: db.folders[id]
  }

  /** Number of notes (of any owner) whose folder is `folderId`. */
  function NoteCount(notes: map<nat, Note>, folderId: nat): nat {
    |NotesInFolder(notes, folderId)|
  }

  /** The database's `count()` of the notes in one folder, computed by visiting every note once. */
  method CountNotesInFolder(notes: map<nat, Note>, folderId: nat) returns (count: nat)
    ensures count == |NotesInFolder(notes, folderId)|
  {
    var inFolder := NotesInFolder(notes, folderId);
    var remaining := notes.Keys;
    ghost var counted: set<nat> := {};
    count := 0;
    while remaining != {}
      invariant remaining <= notes.Keys
      invariant counted == inFolder - remaining
      invariant count == |counted|
      decreases |remaining|
    {
      var id :| id in remaining;
      if notes[id].folderId == Some(folderId) {
        counted := counted + {id};
        count := count + 1;
      }
      remaining := remaining - {id};
    }
  }

  datatype FolderCount = FolderCount(folder: Folder, noteCount: nat)

  /** `get_all_folders_with_note_count_usecase`: one entry per folder of `userId`, each with its note count. */
  method GetAllFoldersWithNoteCount(db: Db, userId: nat) returns (r: map<nat, FolderCount>)
    ensures r.Keys == GetAllFolders(db, userId).Keys
    ensures forall id :: id in r ==> r[id] == FolderCount(db.folders[id], NoteCount(db.notes, id))
  {
    var folders := GetAllFolders(db, userId);
    var remaining := folders.Keys;
    r := map[];
    while remaining != {}
      invariant remaining <= folders.Keys
      invariant r.Keys == folders.Keys - remaining
      invariant forall id :: id in r ==> r[id] == FolderCount(db.folders[id], NoteCount(db.notes, id))
      decreases |remaining|
    {
      var id :| id in remaining;
      var count := CountNotesInFolder(db.notes, id);
      r := r[id := FolderCount(folders[id], count)];
      remaining := remaining - {id};
    }
  }

  /** Moving the notes of `src` into another folder `dst` empties `src` and adds its count to `dst`. */
  lemma {:induction false} MoveFolderCounts(db: Db, src: nat, dst: nat)
    requires src != dst
    ensures var after := Notes.MoveFolder(db, src, Some(dst)).db;
            NoteCount(after.notes, src) == 0
            && NoteCount(after.notes, dst) == NoteCount(db.notes, dst) + NoteCount(db.notes, src)
  {
    var after := Notes.MoveFolder(db, src, Some(dst)).db;
    assert NotesInFolder(after.notes, src) == {};
    assert NotesInFolder(after.notes, dst) == NotesInFolder(db.notes, dst) + NotesInFolder(db.notes, src);
    assert NotesInFolder(db.notes, dst) !! NotesInFolder(db.notes, src);
  }

  /** `create_folder_usecase`: a new folder named `name` for `userId`, created at `now`, under the assigned id. */
  function CreateFolder(db: Db, userId: nat, name: string, now: int, id: nat): (r: Db)
    requires id !in db.folders
    ensures r.folders.Keys == db.folders.Keys + {id}
    ensures r.folders[id].name == name && r.folders[id].userId == userId
    ensures r.folders[id].createdAt == now && r.folders[id].updatedAt == None
    ensures forall k :: k in db.folders ==> r.folders[k] == db.folders[k]
    ensures r.notes == db.notes && r.metadata == db.metadata
  {
    db.(folders := db.folders[id := Folder(userId, name, now, None)])
  }

  datatype FolderUpdated = FolderUpdated(folder: Option<Folder>, db: Db)

  /** `update_folder_usecase`: renames folder `folderId` and stamps `updated_at`; `None` and no change if it is missing. */
  function UpdateFolder(db: Db, folderId: nat, name: string, now: int): (r: FolderUpdated)
    ensures folderId !in db.folders ==> r == FolderUpdated(None, db)
    ensures folderId in db.folders ==>
      && r.db.folders.Keys == db.folders.Keys
      && r.folder == Some(r.db.folders[folderId])
      && r.db.folders[folderId].name == name && r.db.folders[folderId].updatedAt == Some(now)
      && r.db.folders[folderId].userId == db.folders[folderId].userId
      && r.db.folders[folderId].createdAt == db.folders[folderId].createdAt
      && (forall k :: k in db.folders && k != folderId ==> r.db.folders[k] == db.folders[k])
      && r.db.notes == db.notes && r.db.metadata == db.metadata
  {
    if folderId !in db.folders then
      FolderUpdated(None, db)
    else
      var f := db.folders[folderId].(name := name, updatedAt := Some(now));
      FolderUpdated(Some(f), db.(folders := db.folders[folderId := f]))
  }

  datatype FolderDeleted = FolderDeleted(deleted: bool, db: Db)

  /**
   `delete_folder_usecase`: true iff the folder existed; it is then gone. The
   folder's `notes` relationship has no cascade, so deleting the folder sets
   the `folder_id` of its notes to NULL and deletes no note.
   */
  function DeleteFolder(db: Db, folderId: nat): (r: FolderDeleted)
    ensures r.deleted <==> folderId in db.folders
    ensures r.db.folders == db.folders - {folderId}
    ensures !r.deleted ==> r.db == db
    ensures r.db.notes.Keys == db.notes.Keys && r.db.metadata == db.metadata
    ensures r.deleted ==> NotesInFolder(r.db.notes, folderId) == {}
    ensures r.deleted ==> forall id :: id in NotesInFolder(db.notes, folderId) ==>
              r.db.notes[id] == db.notes[id].(folderId := None)
    ensures forall id :: id in db.notes && id !in NotesInFolder(db.notes, folderId) ==> r.db.notes[id] == db.notes[id]
  {
    if folderId in db.folders then FolderDeleted(true, Notes.RemoveFolder(db, folderId).db)
    else FolderDeleted(false, db)
  }

  /** Deleting a folder never leaves a note pointing at a folder that does not exist. */
  lemma DeleteFolderKeepsLinksValid(db: Db, folderId: nat)
    requires FolderLinksValid(db)
    ensures FolderLinksValid(DeleteFolder(db, folderId).db)
  {
    var after := DeleteFolder(db, folderId).db;
    if folderId in db.folders {
      forall id | id in after.notes && after.notes[id].folderId.Some?
        ensures after.notes[id].folderId.value in after.folders
      {
        assert id !in NotesInFolder(db.notes, folderId);
        assert after.notes[id] == db.notes[id];
      }
    }
  }

  /** Creating a folder keeps every note's folder link valid. */
  lemma CreateKeepsLinksValid(db: Db, userId: nat, name: string, now: int, id: nat)
    requires id !in db.folders && FolderLinksValid(db)
    ensures FolderLinksValid(CreateFolder(db, userId, name, now, id))
  {
  }

  /** With valid folder links, deleting a just-created folder reports success and restores the store. */
  lemma CreateThenDelete(db: Db, userId: nat, name: string, now: int, id: nat)
    requires id !in db.folders && FolderLinksValid(db)
    ensures DeleteFolder(CreateFolder(db, userId, name, now, id), id) == FolderDeleted(true, db)
  {
    var created := CreateFolder(db, userId, name, now, id);
    var after := DeleteFolder(created, id).db;
    assert NotesInFolder(db.notes, id) == {};
    assert after.notes == db.notes;
    assert after.folders == db.folders;
  }

  /** After a rename, the folder is listed for the same owner under the new name. */
  lemma RenameThenList(db: Db, folderId: nat, name: string, now: int)
    requires folderId in db.folders
    ensures var after := UpdateFolder(db, folderId, name, now).db;
            && GetAllFolders(after, db.folders[folderId].userId).Keys == GetAllFolders(db, db.folders[folderId].userId).Keys
            && GetAllFolders(after, db.folders[folderId].userId)[folderId].name == name
  {
  }

  /** Renaming twice has the effect of the later rename alone. */
  lemma RenameTwice(db: Db, folderId: nat, n1: string, t1: int, n2: string, t2: int)
    ensures UpdateFolder(UpdateFolder(db, folderId, n1, t1).db, folderId, n2, t2) == UpdateFolder(db, folderId, n2, t2)
  {
    if folderId in db.folders {
      assert UpdateFolder(UpdateFolder(db, folderId, n1, t1).db, folderId, n2, t2).db.folders
          == UpdateFolder(db, folderId, n2, t2).db.folders;
    }
  }

  /** A folder's note listing has as many notes as its count says. */
  lemma FolderListingMatchesCount(db: Db, folderId: nat)
    ensures |Notes.GetNotesByFolder(db, folderId).Keys| == NoteCount(db.notes, folderId)
  {
  }

  /** A created folder is listed among its owner's folders under its name. */
  lemma CreateThenList(db: Db, userId: nat, name: string, now: int, id: nat)
    requires id !in db.folders
    ensures var after := CreateFolder(db, userId, name, now, id);
            id in GetAllFolders(after, userId) && GetAllFolders(after, userId)[id].name == name
  {
  }
}

=== FILE: note_routes.dfy ===
/**
 The sequential logic of the note routes: the YouTube ingestion stream
 (transcript, summary, note, metadata), the lazily generated flashcards and
 quizzes kept on a note, and note deletion (object-store blob first, then the
 two rows in one commit).

 Each route's note query is taken as given: `found` says whether it returned
 the note row with the requested id. External services (caption service,
 summary and artifact generators, object store) are parameters.
 */
module NoteRoutes {
  import opened Common
  import opened Strings
  import opened Store
  import Notes
  import opened VideoUrl
  import opened TranscriptExtraction
  import opened AudioStore

  // ---------------------------------------------------------------------------
  // YouTube ingestion

  /** One server-sent event of the ingestion stream; `Complete` carries the metadata row's JSON text. */
  datatype Event = Progress(message: string) | Failed(message: string) | Complete(message: string)

  /** The fields the summary generator returns on success. */
  datatype SummaryData = SummaryData(title: string, markdown: string, lang: string,
                                     contentCategory: string, emojiRepresentation: string)

  /** A summary generator call: a success dict, a failure dict, or an exception. */
  datatype SummaryOutcome = Summarized(data: SummaryData) | SummaryFailed(error: string) | SummaryRaised(message: string)

  datatype Ingested = Ingested(events: seq<Event>, db: Db)

  const TranscribingMessage: string := "Generating transcript..."
  const TranscribeFailedMessage: string := "Failed to transcribe the YouTube video"
  const SummarizingMessage: string := "Generating summary..."
  const SummaryFailedMessage: string := "Failed to generate summary"
  const CreatingMessage: string := "Creating note..."
  const ProcessFailedPrefix: string := "Process failed: "

  /** Progress events, then exactly one final event, opening with the transcript step. */
  predicate WellFormedStream(events: seq<Event>) {
    && |events| >= 2
    && events[0] == Progress(TranscribingMessage)
    && (forall i :: 0 <= i < |events| - 1 ==> events[i].Progress?)
    && !events[|events| - 1].Progress?
  }

  /** `db` with the note `noteId` and its metadata row added, and nothing else changed. */
  predicate GrowsByOneNote(db: Db, after: Db, noteId: nat) {
    && after.notes.Keys == db.notes.Keys + {noteId}
    && after.metadata.Keys == db.metadata.Keys + {noteId}
    && (forall k :: k in db.notes ==> after.notes[k] == db.notes[k])
    && (forall k :: k in db.metadata ==> after.metadata[k] == db.metadata[k])
    && after.folders == db.folders
  }

  /**
   The event stream of `generate_youtube_summary`. The transcript comes from
   `generate_transcript`; the summary generator is called with the transcript
   and the requested language. Only a summary success creates rows: the note
   (no folder, the URL as its content URL, title, summary and language taken
   from the summary, no flashcards or quizzes yet) and then its metadata
   (title, category and emoji from the summary), under the id the database
   assigns (`noteId`), stamped `now`. Both rows are committed before the
   metadata row is turned into JSON text by `serialize`; an exception there
   ends the stream with the generic failure and leaves both rows stored.
   */
  function IngestYoutube(db: Db, userId: nat, url: SourceUrl, lang: string,
                         fetch: string -> CaptionFetch, summarize: (string, string) -> SummaryOutcome,
                         serialize: (nat, NoteMetadata) -> Result<string, string>,
                         noteId: nat, now: int): (r: Ingested)
    requires noteId !in db.notes && noteId !in db.metadata
    ensures WellFormedStream(r.events)
    ensures GenerateTranscript(url.parsed, fetch).Err? ==>
              r.events == [Progress(TranscribingMessage), Failed(TranscribeFailedMessage)] && r.db == db
    ensures GenerateTranscript(url.parsed, fetch).Ok? ==>
              var text := GenerateTranscript(url.parsed, fetch).value.transcript;
              var outcome := summarize(text, lang);
              var started := [Progress(TranscribingMessage), Progress(SummarizingMessage)];
              && (outcome.SummaryFailed? ==> r.events == started + [Failed(SummaryFailedMessage)] && r.db == db)
              && (outcome.SummaryRaised? ==> r.events == started + [Failed(ProcessFailedPrefix + outcome.message)] && r.db == db)
              && (outcome.Summarized? ==>
                    var s := outcome.data;
                    var meta := NoteMetadata(userId, s.title, s.contentCategory, s.emojiRepresentation, now);
                    && GrowsByOneNote(db, r.db, noteId)
                    && r.db.notes[noteId] == Note(userId, None, s.title, s.markdown, text, s.lang, Some(url.raw), None, None)
                    && r.db.metadata[noteId] == meta
                    && r.events == started + [Progress(CreatingMessage),
                                              if serialize(noteId, meta).Ok? then Complete(serialize(noteId, meta).value)
                                              else Failed(ProcessFailedPrefix + serialize(noteId, meta).error)])
    ensures r.events[|r.events| - 1].Complete? <==>
              && GenerateTranscript(url.parsed, fetch).Ok?
              && summarize(GenerateTranscript(url.parsed, fetch).value.transcript, lang).Summarized?
              && noteId in r.db.metadata
              && serialize(noteId, r.db.metadata[noteId]).Ok?
    ensures r.db != db ==>
              && GenerateTranscript(url.parsed, fetch).Ok?
              && summarize(GenerateTranscript(url.parsed, fetch).value.transcript, lang).Summarized?
  {
    var transcript := GenerateTranscript(url.parsed, fetch);
    if transcript.Err? then
      Ingested([Progress(TranscribingMessage), Failed(TranscribeFailedMessage)], db)
    else
      var text := transcript.value.transcript;
      var started := [Progress(TranscribingMessage), Progress(SummarizingMessage)];
      match summarize(text, lang)
      case SummaryFailed(_) => Ingested(started + [Failed(SummaryFailedMessage)], db)
      case SummaryRaised(m) => Ingested(started + [Failed(ProcessFailedPrefix + m)], db)
      case Summarized(s) =>
        var created := CreateNote(db, userId, url, text, s, serialize, noteId, now);
        Ingested(started + created.events, created.db)
  }

  /**
   The note-creation step of the ingestion stream: the note and then its
   metadata row are committed, and the metadata row is then serialized for
   the completion event.
   */
  function CreateNote(db: Db, userId: nat, url: SourceUrl, text: string, s: SummaryData,
                      serialize: (nat, NoteMetadata) -> Result<string, string>, noteId: nat, now: int): (r: Ingested)
    requires noteId !in db.notes && noteId !in db.metadata
    ensures GrowsByOneNote(db, r.db, noteId)
    ensures r.db.notes[noteId] == Note(userId, None, s.title, s.markdown, text, s.lang, Some(url.raw), None, None)
    ensures r.db.metadata[noteId] == NoteMetadata(userId, s.title, s.contentCategory, s.emojiRepresentation, now)
    ensures r.events == [Progress(CreatingMessage),
                         if serialize(noteId, r.db.metadata[noteId]).Ok? then Complete(serialize(noteId, r.db.metadata[noteId]).value)
                         else Failed(ProcessFailedPrefix + serialize(noteId, r.db.metadata[noteId]).error)]
  {
    var withNote := Notes.AddNote(db, userId, None,
                                  NoteCreate(s.title, s.markdown, text, s.lang, Some(url.raw), None, None), noteId);
    var withMeta := Notes.AddMetadata(withNote, userId, noteId,
                                      NoteMetadataCreate(s.title, s.contentCategory, s.emojiRepresentation, now));
    var last := match serialize(noteId, withMeta.metadata[noteId])
                case Ok(json) => Complete(json)
                case Err(e) => Failed(ProcessFailedPrefix + e);
    Ingested([Progress(CreatingMessage), last], withMeta)
  }

  /** Ingestion keeps every note paired with exactly one metadata row. */
  lemma IngestKeepsPairing(db: Db, userId: nat, url: SourceUrl, lang: string,
                           fetch: string -> CaptionFetch, summarize: (string, string) -> SummaryOutcome,
                           serialize: (nat, NoteMetadata) -> Result<string, string>, noteId: nat, now: int)
    requires noteId !in db.notes && Paired(db)
    ensures Paired(IngestYoutube(db, userId, url, lang, fetch, summarize, serialize, noteId, now).db)
  {
  }

  /** A URL without a valid video id fails at the transcript step: the summary generator is never consulted. */
  lemma InvalidUrlNeverSummarizes(db: Db, userId: nat, url: SourceUrl, lang: string, fetch: string -> CaptionFetch,
                                  s1: (string, string) -> SummaryOutcome, s2: (string, string) -> SummaryOutcome,
                                  serialize: (nat, NoteMetadata) -> Result<string, string>, noteId: nat, now: int)
    requires noteId !in db.notes && noteId !in db.metadata
    requires !IsValidVideoId(GetVideoId(url.parsed))
    ensures IngestYoutube(db, userId, url, lang, fetch, s1, serialize, noteId, now)
         == IngestYoutube(db, userId, url, lang, fetch, s2, serialize, noteId, now)
         == Ingested([Progress(TranscribingMessage), Failed(TranscribeFailedMessage)], db)
  {
  }

  /** A summary exception is reported with its own text behind the fixed prefix, and nothing is stored. */
  lemma SummaryExceptionIsReported(db: Db, userId: nat, url: SourceUrl, lang: string, fetch: string -> CaptionFetch,
                                   m: string, serialize: (nat, NoteMetadata) -> Result<string, string>, noteId: nat, now: int)
    requires noteId !in db.notes && noteId !in db.metadata
    requires GenerateTranscript(url.parsed, fetch).Ok?
    ensures var r := IngestYoutube(db, userId, url, lang, fetch, (_, _) => SummaryRaised(m), serialize, noteId, now);
            r.events[|r.events| - 1] == Failed(ProcessFailedPrefix + m) && r.db == db
  {
  }

  // ---------------------------------------------------------------------------
  // flashcards and quizzes, generated once and kept on the note

  /** Python truthiness of a stored list: present and non-empty. An empty list is not a cache hit. */
  predicate IsCached<T>(items: Option<seq<T>>) {
    items.Some? && |items.value| > 0
  }

  /** A generator call: the generated list, or the failure dict (which has no `data`). */
  datatype Generated<T> = Generated(items: seq<T>) | GenerationFailed(message: string)

  /** What the route answers: 404, the list, or the `KeyError` raised on a failure dict. */
  datatype Served<T> = NoteNotFound | Served(items: seq<T>) | GenerationRaised

  datatype ArtifactResult<T> = ArtifactResult(response: Served<T>, db: Db)

  /** `db` with only the flashcards of note `id` replaced by `items`. */
  function WithFlashcards(db: Db, id: nat, items: seq<Flashcard>): Db
    requires id in db.notes
  {
    db.(notes := db.notes[id := db.notes[id].(flashcards := Some(items))])
  }

  /** `db` with only the quizzes of note `id` replaced by `items`. */
  function WithQuizzes(db: Db, id: nat, items: seq<Quiz>): Db
    requires id in db.notes
  {
    db.(notes := db.notes[id := db.notes[id].(quizzes := Some(items))])
  }

  /**
   `create_flashcards`: 404 if the note query found nothing; the stored list if
   it is non-empty; otherwise the generator's list for the note's transcript and
   language, which is then stored. A failed generation raises and stores nothing.
   */
  function CreateFlashcards(db: Db, noteId: nat, found: bool,
                            generate: (string, string) -> Generated<Flashcard>): (r: ArtifactResult<Flashcard>)
    requires found ==> noteId in db.notes
    ensures !found ==> r == ArtifactResult(NoteNotFound, db)
    ensures found && IsCached(db.notes[noteId].flashcards) ==>
              r == ArtifactResult(Served(db.notes[noteId].flashcards.value), db)
    ensures found && !IsCached(db.notes[noteId].flashcards) ==>
              var g := generate(db.notes[noteId].transcriptText, db.notes[noteId].language);
              && (g.Generated? ==> r == ArtifactResult(Served(g.items), WithFlashcards(db, noteId, g.items)))
              && (g.GenerationFailed? ==> r == ArtifactResult(GenerationRaised, db))
    ensures r.db.notes.Keys == db.notes.Keys && r.db.metadata == db.metadata && r.db.folders == db.folders
    ensures forall k :: k in db.notes && k != noteId ==> r.db.notes[k] == db.notes[k]
    ensures noteId in db.notes ==> r.db.notes[noteId].(flashcards := db.notes[noteId].flashcards) == db.notes[noteId]
    ensures r.response.Served? ==> noteId in r.db.notes && r.db.notes[noteId].flashcards == Some(r.response.items)
  {
    if !found then
      ArtifactResult(NoteNotFound, db)
    else
      var note := db.notes[noteId];
      if IsCached(note.flashcards) then
        ArtifactResult(Served(note.flashcards.value), db)
      else
        match generate(note.transcriptText, note.language)
        case Generated(items) => ArtifactResult(Served(items), WithFlashcards(db, noteId, items))
        case GenerationFailed(_) => ArtifactResult(GenerationRaised, db)
  }

  /** `create_quizzes`: the same policy as `create_flashcards`, applied to the `quizzes` field. */
  function CreateQuizzes(db: Db, noteId: nat, found: bool,
                         generate: (string, string) -> Generated<Quiz>): (r: ArtifactResult<Quiz>)
    requires found ==> noteId in db.notes
    ensures !found ==> r == ArtifactResult(NoteNotFound, db)
    ensures found && IsCached(db.notes[noteId].quizzes) ==>
              r == ArtifactResult(Served(db.notes[noteId].quizzes.value), db)
    ensures found && !IsCached(db.notes[noteId].quizzes) ==>
              var g := generate(db.notes[noteId].transcriptText, db.notes[noteId].language);
              && (g.Generated? ==> r == ArtifactResult(Served(g.items), WithQuizzes(db, noteId, g.items)))
              && (g.GenerationFailed? ==> r == ArtifactResult(GenerationRaised, db))
    ensures r.db.notes.Keys == db.notes.Keys && r.db.metadata == db.metadata && r.db.folders == db.folders
    ensures forall k :: k in db.notes && k != noteId ==> r.db.notes[k] == db.notes[k]
    ensures noteId in db.notes ==> r.db.notes[noteId].(quizzes := db.notes[noteId].quizzes) == db.notes[noteId]
    ensures r.response.Served? ==> noteId in r.db.notes && r.db.notes[noteId].quizzes == Some(r.response.items)
  {
    if !found then
      ArtifactResult(NoteNotFound, db)
    else
      var note := db.notes[noteId];
      if IsCached(note.quizzes) then
        ArtifactResult(Served(note.quizzes.value), db)
      else
        match generate(note.transcriptText, note.language)
        case Generated(items) => ArtifactResult(Served(items), WithQuizzes(db, noteId, items))
        case GenerationFailed(_) => ArtifactResult(GenerationRaised, db)
  }

  /**
   Once a request has served a non-empty list, the next request serves the
   same list from the note, whatever the generator would now return, and
   changes nothing.
   */
  lemma {:induction false} FlashcardsIdempotent(db: Db, noteId: nat, g1: (string, string) -> Generated<Flashcard>,
                                                g2: (string, string) -> Generated<Flashcard>)
    requires noteId in db.notes
    requires var first := CreateFlashcards(db, noteId, true, g1);
             first.response.Served? && |first.response.items| > 0
    ensures var first := CreateFlashcards(db, noteId, true, g1);
            CreateFlashcards(first.db, noteId, true, g2) == first
  {
    var first := CreateFlashcards(db, noteId, true, g1);
    assert first.db.notes[noteId].flashcards == Some(first.response.items);
    assert IsCached(first.db.notes[noteId].flashcards);
  }

  /** The same idempotence for quizzes. */
  lemma {:induction false} QuizzesIdempotent(db: Db, noteId: nat, g1: (string, string) -> Generated<Quiz>,
                                             g2: (string, string) -> Generated<Quiz>)
    requires noteId in db.notes
    requires var first := CreateQuizzes(db, noteId, true, g1);
             first.response.Served? && |first.response.items| > 0
    ensures var first := CreateQuizzes(db, noteId, true, g1);
            CreateQuizzes(first.db, noteId, true, g2) == first
  {
    var first := CreateQuizzes(db, noteId, true, g1);
    assert first.db.notes[noteId].quizzes == Some(first.response.items);
    assert IsCached(first.db.notes[noteId].quizzes);
  }

  /** A stored empty list is treated exactly like no list: the generator is asked again. */
  lemma EmptyFlashcardsRegenerate(db: Db, noteId: nat, generate: (string, string) -> Generated<Flashcard>)
    requires noteId in db.notes && db.notes[noteId].flashcards == Some([])
    ensures CreateFlashcards(db, noteId, true, generate).response
         == CreateFlashcards(db.(notes := db.notes[noteId := db.notes[noteId].(flashcards := None)]),
                             noteId, true, generate).response
  {
  }

  /** A failed generation leaves the store exactly as it was. */
  lemma FailedGenerationStoresNothing(db: Db, noteId: nat, found: bool, m: string)
    requires found ==> noteId in db.notes
    ensures CreateFlashcards(db, noteId, found, (_, _) => GenerationFailed(m)).db == db
    ensures CreateQuizzes(db, noteId, found, (_, _) => GenerationFailed(m)).db == db
  {
  }

  /** The two caches are independent: serving flashcards and quizzes in either order ends in the same store. */
  lemma {:induction false} ArtifactsCommute(db: Db, noteId: nat, fg: (string, string) -> Generated<Flashcard>,
                                            qg: (string, string) -> Generated<Quiz>)
    requires noteId in db.notes
    ensures var f1 := CreateFlashcards(db, noteId, true, fg);
            var q2 := CreateQuizzes(f1.db, noteId, true, qg);
            var q1 := CreateQuizzes(db, noteId, true, qg);
            var f2 := CreateFlashcards(q1.db, noteId, true, fg);
            q2.db == f2.db && f1.response == f2.response && q1.response == q2.response
  {
    var f1 := CreateFlashcards(db, noteId, true, fg);
    var q2 := CreateQuizzes(f1.db, noteId, true, qg);
    var q1 := CreateQuizzes(db, noteId, true, qg);
    var f2 := CreateFlashcards(q1.db, noteId, true, fg);
    assert f1.response == f2.response;
    assert q1.response == q2.response;
    assert q2.db.notes[noteId] == f2.db.notes[noteId];
    assert q2.db.notes == f2.db.notes;
  }

  // ---------------------------------------------------------------------------
  // delete_note, as written

  datatype DeleteOutcome = Deleted(detail: string) | DeleteNotFound | DeleteFailed(message: string)

  /** The object-store bucket and the database after a delete request. */
  datatype DeleteResult = DeleteResult(outcome: DeleteOutcome, bucket: set<string>, db: Db)

  const ObjectDeletePrefix: string := "Failed to delete file from MinIO: "

  /** The error of `db.delete(None)` when the metadata query found no row. */
  const UnmappedMessage: string := "Class 'builtins.NoneType' is not mapped"

  /** The detail of a successful delete. */
  function DeletedDetail(noteId: nat): string {
    "Note with id " + NatToDecimal(noteId) + " deleted"
  }

  /** `db` without note `noteId` and without its metadata row. */
  function WithoutNote(db: Db, noteId: nat): Db {
    db.(notes := db.notes - {noteId}, metadata := db.metadata - {noteId})
  }

  /** The rows step of a delete, after any blob removal: both rows in one commit, or the unmapped error. */
  function DeleteRows(db: Db, bucket: set<string>, noteId: nat, metadataFound: bool): (r: DeleteResult)
    requires metadataFound ==> noteId in db.metadata
    ensures r.bucket == bucket
    ensures metadataFound ==> r == DeleteResult(Deleted(DeletedDetail(noteId)), bucket, WithoutNote(db, noteId))
    ensures !metadataFound ==> r == DeleteResult(DeleteFailed(UnmappedMessage), bucket, db)
  {
    if metadataFound then DeleteResult(Deleted(DeletedDetail(noteId)), bucket, WithoutNote(db, noteId))
    else DeleteResult(DeleteFailed(UnmappedMessage), bucket, db)
  }

  /**
   `delete_note`: 404 if the note query found nothing; otherwise the object
   name is read from the note's content URL (an error there ends the request);
   the object is removed (a missing object ends the request with the store's
   error text, `statError`); then the metadata row and the note row are deleted
   together. `metadataFound` says whether the metadata query returned the row.
   */
  function DeleteNote(db: Db, bucket: set<string>, noteId: nat, found: bool, metadataFound: bool,
                      statError: string -> string): (r: DeleteResult)
    requires found ==> noteId in db.notes
    requires metadataFound ==> noteId in db.metadata
    ensures r.outcome.Deleted? <==>
              && found && metadataFound
              && ExtractAudioFilename(db.notes[noteId].contentUrl).Ok?
              && ExtractAudioFilename(db.notes[noteId].contentUrl).value in bucket
    ensures r.outcome.Deleted? ==>
              && r.db == WithoutNote(db, noteId)
              && r.bucket == bucket - {ExtractAudioFilename(db.notes[noteId].contentUrl).value}
              && r.outcome.detail == DeletedDetail(noteId)
    ensures !r.outcome.Deleted? ==> r.db == db
    ensures !found ==> r == DeleteResult(DeleteNotFound, bucket, db)
    ensures r.bucket != bucket ==>
              && found && ExtractAudioFilename(db.notes[noteId].contentUrl).Ok?
              && r.bucket == bucket - {ExtractAudioFilename(db.notes[noteId].contentUrl).value}
  {
    if !found then
      DeleteResult(DeleteNotFound, bucket, db)
    else
      match ExtractAudioFilename(db.notes[noteId].contentUrl)
      case Err(m) => DeleteResult(DeleteFailed(m), bucket, db)
      case Ok(name) =>
        if name !in bucket then
          DeleteResult(DeleteFailed(ObjectDeletePrefix + statError(name)), bucket, db)
        else
          DeleteRows(db, bucket - {name}, noteId, metadataFound)
  }

  /** Rows are never deleted before the blob: with the metadata row missing, the blob is gone but both rows stay. */
  lemma BlobGoesFirst(db: Db, bucket: set<string>, noteId: nat, statError: string -> string)
    requires noteId in db.notes && noteId !in db.metadata
    requires ExtractAudioFilename(db.notes[noteId].contentUrl).Ok?
    requires ExtractAudioFilename(db.notes[noteId].contentUrl).value in bucket
    ensures var r := DeleteNote(db, bucket, noteId, true, false, statError);
            && r.outcome == DeleteFailed(UnmappedMessage) && r.db == db
            && r.bucket == bucket - {ExtractAudioFilename(db.notes[noteId].contentUrl).value}
  {
  }

  /** A delete keeps every note paired with its metadata row. */
  lemma DeleteKeepsPairing(db: Db, bucket: set<string>, noteId: nat, found: bool, metadataFound: bool,
                           statError: string -> string)
    requires found ==> noteId in db.notes
    requires metadataFound ==> noteId in db.metadata
    requires Paired(db)
    ensures Paired(DeleteNote(db, bucket, noteId, found, metadataFound, statError).db)
  {
  }

  /** A note stored with an empty content URL (as the welcome note is) can never be deleted. */
  lemma EmptyUrlNoteIsNotDeleted(db: Db, bucket: set<string>, noteId: nat, statError: string -> string)
    requires noteId in db.notes && noteId in db.metadata
    requires db.notes[noteId].contentUrl == Some("")
    ensures DeleteNote(db, bucket, noteId, true, true, statError) == DeleteResult(DeleteFailed(EmptyUrlMessage), bucket, db)
  {
  }

  /** The text of the watch link `https://www.youtube.com/watch?v=<id>`, as ingestion stores it. */
  function WatchUrl(id: string): string {
    "https://www.youtube.com/watch?v=" + id
  }

  /** The object name read from a watch link is its last segment, `watch?v=<id>`, for any slash-free id. */
  lemma WatchLinkObjectName(id: string)
    requires Excludes(id, '/')
    ensures ExtractAudioFilename(Some(WatchUrl(id))) == Ok("watch?v=" + id)
  {
    var url := WatchUrl(id);
    var name := "watch?v=" + id;
    assert url[24..] == name;
    forall j | 0 <= j < |name| ensures name[j] != '/' {
      if j >= 8 {
        assert name[j] == id[j - 8];
      }
    }
    LastSegmentUnique(url, name, 24);
  }

  /**
   A note ingested from a watch link cannot be deleted when the bucket holds
   no object named like the link's last segment (the video was never
   uploaded, and neither `put_object` nor `copy_file_from_url` gives such a
   name, see ObjectNamesCarryUnderscore and CopiedNameIsNotWatchSegment):
   the request fails with the store's error and both rows stay.
   */
  lemma YoutubeNoteIsNotDeleted(db: Db, bucket: set<string>, noteId: nat, id: string, statError: string -> string)
    requires noteId in db.notes && noteId in db.metadata
    requires Excludes(id, '/')
    requires db.notes[noteId].contentUrl == Some(WatchUrl(id))
    requires "watch?v=" + id !in bucket
    ensures DeleteNote(db, bucket, noteId, true, true, statError)
         == DeleteResult(DeleteFailed(ObjectDeletePrefix + statError("watch?v=" + id)), bucket, db)
  {
    WatchLinkObjectName(id);
  }

  /** No name `put_object` gives is the last segment of a watch link whose id has no `_`: each of those names carries `_`. */
  lemma ObjectNamesCarryUnderscore(filename: string, timestamp: nat, id: string)
    requires '_' !in id
    ensures ObjectName(filename, timestamp) != "watch?v=" + id
  {
    var segment := "watch?v=" + id;
    forall j | 0 <= j < |segment| ensures segment[j] != '_' {
      if j >= 8 {
        assert segment[j] == id[j - 8];
      }
    }
    assert '_' !in segment;
  }

  /** The text of a random UUID as `str(uuid.uuid4())` renders it: 36 lower-case hex digits and hyphens, in groups 8-4-4-4-12. */
  predicate IsUuidText(s: string) {
    && |s| == 36
    && forall i :: 0 <= i < |s| ==>
         if i == 8 || i == 13 || i == 18 || i == 23 then s[i] == '-' else s[i] in "0123456789abcdef"
  }

  /**
   No name `copy_file_from_url` gives (a UUID's text followed by the source's
   extension) is the last segment of a watch link: the UUID opens with a hex
   digit, and the segment opens with `w`.
   */
  lemma CopiedNameIsNotWatchSegment(fileId: string, ext: string, id: string)
    requires IsUuidText(fileId)
    ensures fileId + ext != "watch?v=" + id
  {
    assert (fileId + ext)[0] == fileId[0];
    assert ("watch?v=" + id)[0] == 'w';
  }

  // ---------------------------------------------------------------------------
  // delete_note, as intended

  /**
   The delete the route was evidently meant to perform: 404 when the note is
   not found; the blob step is skipped when the note has no stored object (no
   URL, an empty URL, a YouTube link, or a URL ending in `/`); otherwise the
   object is removed first, as written; then both rows go in one commit.
   */
  function DeleteNoteIntended(db: Db, bucket: set<string>, noteId: nat, found: bool, metadataFound: bool,
                              statError: string -> string): (r: DeleteResult)
    requires found ==> noteId in db.notes
    requires metadataFound ==> noteId in db.metadata
    ensures !found ==> r == DeleteResult(DeleteNotFound, bucket, db)
    ensures r.outcome.Deleted? <==>
              && found && metadataFound
              && (StoredObjectName(db.notes[noteId].contentUrl).None?
                  || StoredObjectName(db.notes[noteId].contentUrl).value in bucket)
    ensures r.outcome.Deleted? ==> r.db == WithoutNote(db, noteId) && r.outcome.detail == DeletedDetail(noteId)
    ensures !r.outcome.Deleted? ==> r.db == db
    ensures found && StoredObjectName(db.notes[noteId].contentUrl).None? ==> r.bucket == bucket
    ensures found && StoredObjectName(db.notes[noteId].contentUrl).Some? ==>
              r.bucket == bucket - {StoredObjectName(db.notes[noteId].contentUrl).value}
  {
    if !found then
      DeleteResult(DeleteNotFound, bucket, db)
    else
      match StoredObjectName(db.notes[noteId].contentUrl)
      case None => DeleteRows(db, bucket, noteId, metadataFound)
      case Some(name) =>
        if name !in bucket then
          DeleteResult(DeleteFailed(ObjectDeletePrefix + statError(name)), bucket, db)
        else
          DeleteRows(db, bucket - {name}, noteId, metadataFound)
  }

  /** Where the note has a stored object, the intended delete is the delete as written. */
  lemma IntendedAgreesWithStoredObject(db: Db, bucket: set<string>, noteId: nat, found: bool, metadataFound: bool,
                                       statError: string -> string)
    requires found ==> noteId in db.notes
    requires metadataFound ==> noteId in db.metadata
    requires found ==> StoredObjectName(db.notes[noteId].contentUrl).Some?
    ensures DeleteNoteIntended(db, bucket, noteId, found, metadataFound, statError)
         == DeleteNote(db, bucket, noteId, found, metadataFound, statError)
  {
  }

  /** With the intended delete, a note with both rows is deleted whenever its blob, if it has one, is in the bucket. */
  lemma {:induction false} IntendedDeleteSucceeds(db: Db, bucket: set<string>, noteId: nat, statError: string -> string)
    requires noteId in db.notes && noteId in db.metadata
    requires var o := StoredObjectName(db.notes[noteId].contentUrl); o.Some? ==> o.value in bucket
    ensures var r := DeleteNoteIntended(db, bucket, noteId, true, true, statError);
            r.outcome == Deleted(DeletedDetail(noteId)) && r.db == WithoutNote(db, noteId)
  {
  }

  /** The intended delete of a note ingested from a watch link removes its rows and touches no object. */
  lemma IntendedDeleteOfYoutubeNote(db: Db, bucket: set<string>, noteId: nat, id: string, statError: string -> string)
    requires noteId in db.notes && noteId in db.metadata
    requires db.notes[noteId].contentUrl == Some(WatchUrl(id))
    ensures DeleteNoteIntended(db, bucket, noteId, true, true, statError)
         == DeleteResult(Deleted(DeletedDetail(noteId)), bucket, WithoutNote(db, noteId))
  {
    WatchLinkIsYoutube(id);
  }

  /** Every watch link is recognised as a YouTube link. */
  lemma WatchLinkIsYoutube(id: string)
    ensures IsYoutubeLink(WatchUrl(id))
  {
    var url := WatchUrl(id);
    assert url[12..23] == "youtube.com";
    assert OccursAt(url, "youtube.com", 12);
  }

  /**
   Once ingesting a YouTube video has stored its note (whether or not the
   metadata row's JSON text was produced), deleting the new note (as intended)
   restores the store and the bucket.
   */
  lemma {:induction false} IngestThenDeleteRestores(db: Db, bucket: set<string>, userId: nat, url: SourceUrl, lang: string,
                                                    fetch: string -> CaptionFetch,
                                                    summarize: (string, string) -> SummaryOutcome,
                                                    serialize: (nat, NoteMetadata) -> Result<string, string>,
                                                    noteId: nat, now: int, statError: string -> string)
    requires noteId !in db.notes && noteId !in db.metadata
    requires IsYoutubeLink(url.raw)
    requires noteId in IngestYoutube(db, userId, url, lang, fetch, summarize, serialize, noteId, now).db.notes
    ensures var after := IngestYoutube(db, userId, url, lang, fetch, summarize, serialize, noteId, now).db;
            DeleteNoteIntended(after, bucket, noteId, true, true, statError) == DeleteResult(Deleted(DeletedDetail(noteId)), bucket, db)
  {
    var after := IngestYoutube(db, userId, url, lang, fetch, summarize, serialize, noteId, now).db;
    assert StoredObjectName(after.notes[noteId].contentUrl).None?;
    assert WithoutNote(after, noteId).notes == db.notes;
    assert WithoutNote(after, noteId).metadata == db.metadata;
  }
}

=== FILE: notes.dfy ===
/**
 Note usecases: insertion, owner-scoped partial update with the title mirrored
 into the metadata row, moving or unlinking the notes of a folder, and the
 owner-scoped queries.
 */
module Notes {
  import opened Common
  import opened Store

  // ---------------------------------------------------------------------------
  // add_note / add_metadata

  /** `add_note`: stores a note built from `c` for `userId` in `folderId` under the id the database assigns. */
  function AddNote(db: Db, userId: nat, folderId: Option<nat>, c: NoteCreate, id: nat): (r: Db)
    requires id !in db.notes
    ensures r.notes.Keys == db.notes.Keys + {id}
    ensures forall k :: k in db.notes ==> r.notes[k] == db.notes[k]
    ensures r.notes[id].userId == userId && r.notes[id].folderId == folderId
    ensures r.notes[id].title == c.title && r.notes[id].summary == c.summary
    ensures r.notes[id].transcriptText == c.transcriptText && r.notes[id].language == c.language
    ensures r.notes[id].contentUrl == c.contentUrl
    ensures r.notes[id].flashcards == c.flashcards && r.notes[id].quizzes == c.quizzes
    ensures r.metadata == db.metadata && r.folders == db.folders
  {
    var note := Note(userId, folderId, c.title, c.summary, c.transcriptText, c.language,
                     c.contentUrl, c.flashcards, c.quizzes);
    db.(notes := db.notes[id := note])
  }

  /** `add_metadata`: stores the metadata row of note `noteId` for `userId`. */
  function AddMetadata(db: Db, userId: nat, noteId: nat, c: NoteMetadataCreate): (r: Db)
    requires noteId !in db.metadata
    ensures r.metadata.Keys == db.metadata.Keys + {noteId}
    ensures forall k :: k in db.metadata ==> r.metadata[k] == db.metadata[k]
    ensures r.metadata[noteId].userId == userId && r.metadata[noteId].title == c.title
    ensures r.metadata[noteId].contentCategory == c.contentCategory
    ensures r.metadata[noteId].emojiRepresentation == c.emojiRepresentation
    ensures r.metadata[noteId].dateCreated == c.dateCreated
    ensures r.notes == db.notes && r.folders == db.folders
  {
    var m := NoteMetadata(userId, c.title, c.contentCategory, c.emojiRepresentation, c.dateCreated);
    db.(metadata := db.metadata[noteId := m])
  }

  // ---------------------------------------------------------------------------
  // owner-scoped lookups

  /** `get_note_by_id`: the note with this id, but only when `userId` owns it. */
  function GetNoteById(db: Db, noteId: nat, userId: nat): (r: Option<Note>)
    ensures r.Some? <==> noteId in db.notes && db.notes[noteId].userId == userId
    ensures r.Some? ==> r.value == db.notes[noteId]
  {
    if noteId in db.notes && db.notes[noteId].userId == userId then Some(db.notes[noteId]) else None
  }

  /** `get_unfoldered_notes`: the notes of `userId` that are in no folder. */
  function GetUnfolderedNotes(db: Db, userId: nat): (r: map<nat, Note>)
    ensures forall id :: id in r <==> id in db.notes && db.notes[id].userId == userId && db.notes[id].folderId.None?
    ensures forall id :: id in r ==> r[id] == db.notes[id]
  {
    map id | id in db.notes && db.notes[id].userId == userId && db.notes[id].folderId.None? :: db.notes[id]
  }

  /** `get_notes_by_folder`: every note in the folder, whoever owns it. */
  function GetNotesByFolder(db: Db, folderId: nat): (r: map<nat, Note>)
    ensures r.Keys == NotesInFolder(db.notes, folderId)
    ensures forall id :: id in r ==> r[id] == db.notes[id]
  {
    map id | id in NotesInFolder(db.notes, folderId) :: db.notes[id]
  }

  /** `get_all_notes`: the metadata rows of `userId`. */
  function GetAllNotes(db: Db, userId: nat): (r: map<nat, NoteMetadata>)
    ensures forall id :: id in r <==> id in db.metadata && db.metadata[id].userId == userId
    ensures forall id :: id in r ==> r[id] == db.metadata[id]
  {
    map id | id in db.metadata && db.metadata[id].userId == userId :: db.metadata[id]
  }

  /** A freshly added note is found by its owner, and by nobody else. */
  lemma AddThenGet(db: Db, userId: nat, folderId: Option<nat>, c: NoteCreate, id: nat, other: nat)
    requires id !in db.notes
    requires other != userId
    ensures GetNoteById(AddNote(db, userId, folderId, c, id), id, userId).Some?
    ensures GetNoteById(AddNote(db, userId, folderId, c, id), id, other).None?
    ensures var n := GetNoteById(AddNote(db, userId, folderId, c, id), id, userId).value;
            NoteCreate(n.title, n.summary, n.transcriptText, n.language, n.contentUrl, n.flashcards, n.quizzes) == c
  {
  }

  // ---------------------------------------------------------------------------
  // update_note

  /** The note row and the metadata row of `noteId` both exist and both belong to `userId`. */
  predicate Owns(db: Db, noteId: nat, userId: nat) {
    && noteId in db.notes && db.notes[noteId].userId == userId
    && noteId in db.metadata && db.metadata[noteId].userId == userId
  }

  /** A field that was left out keeps `before`; a field that was set holds the set value. */
  predicate Respects<T(==)>(p: Patch<T>, before: T, after: T) {
    (p.Unset? ==> after == before) && (p.Set? ==> after == p.value)
  }

  /** Every field of `after` is what the update asks for, and owner and folder are untouched. */
  predicate UpdatedAsAsked(before: Note, u: NoteUpdate, after: Note) {
    && after.userId == before.userId && after.folderId == before.folderId
    && Respects(u.title, before.title, after.title)
    && Respects(u.summary, before.summary, after.summary)
    && Respects(u.transcriptText, before.transcriptText, after.transcriptText)
    && Respects(u.language, before.language, after.language)
    && Respects(u.contentUrl, before.contentUrl, after.contentUrl)
    && Respects(u.flashcards, before.flashcards, after.flashcards)
    && Respects(u.quizzes, before.quizzes, after.quizzes)
  }

  function ApplyUpdate(n: Note, u: NoteUpdate): Note {
    n.(title := Patched(u.title, n.title),
       summary := Patched(u.summary, n.summary),
       transcriptText := Patched(u.transcriptText, n.transcriptText),
       language := Patched(u.language, n.language),
       contentUrl := Patched(u.contentUrl, n.contentUrl),
       flashcards := Patched(u.flashcards, n.flashcards),
       quizzes := Patched(u.quizzes, n.quizzes))
  }

  datatype Updated = Updated(note: Option<Note>, db: Db)

  /**
   `update_note`: applies the set fields of `u` to note `noteId` of `userId`,
   writing a set title into the metadata row too. Returns `None` and changes
   nothing unless both rows exist and belong to `userId`.
   */
  function UpdateNote(db: Db, noteId: nat, u: NoteUpdate, userId: nat): (r: Updated)
    ensures !Owns(db, noteId, userId) ==> r == Updated(None, db)
    ensures Owns(db, noteId, userId) ==>
      && r.db.notes.Keys == db.notes.Keys && r.db.metadata.Keys == db.metadata.Keys
      && r.note == Some(r.db.notes[noteId])
      && r.db.folders == db.folders
      && UpdatedAsAsked(db.notes[noteId], u, r.db.notes[noteId])
      && (forall k :: k in db.notes && k != noteId ==> r.db.notes[k] == db.notes[k])
      && (forall k :: k in db.metadata && k != noteId ==> r.db.metadata[k] == db.metadata[k])
      && r.db.metadata[noteId].(title := db.metadata[noteId].title) == db.metadata[noteId]
      && Respects(u.title, db.metadata[noteId].title, r.db.metadata[noteId].title)
  {
    if !Owns(db, noteId, userId) then
      Updated(None, db)
    else
      var note := ApplyUpdate(db.notes[noteId], u);
      var meta := db.metadata[noteId];
      var meta' := if u.title.Set? then meta.(title := u.title.value) else meta;
      Updated(Some(note), db.(notes := db.notes[noteId := note], metadata := db.metadata[noteId := meta']))
  }

  /** After an update that sets the title, the metadata row shows the note's new title. */
  lemma UpdateMirrorsTitle(db: Db, noteId: nat, u: NoteUpdate, userId: nat)
    requires Owns(db, noteId, userId) && u.title.Set?
    ensures var r := UpdateNote(db, noteId, u, userId);
            r.db.metadata[noteId].title == r.db.notes[noteId].title == u.title.value
  {
  }

  /** Applying the same partial update twice has the effect of applying it once. */
  lemma {:induction false} UpdateIdempotent(db: Db, noteId: nat, u: NoteUpdate, userId: nat)
    ensures var once := UpdateNote(db, noteId, u, userId);
            UpdateNote(once.db, noteId, u, userId) == once
  {
    var once := UpdateNote(db, noteId, u, userId);
    if Owns(db, noteId, userId) {
      assert Owns(once.db, noteId, userId);
      var twice := UpdateNote(once.db, noteId, u, userId);
      assert twice.db.notes[noteId] == once.db.notes[noteId];
      assert twice.db.metadata[noteId] == once.db.metadata[noteId];
      assert twice.db.notes == once.db.notes;
      assert twice.db.metadata == once.db.metadata;
    }
  }

  /** An update that sets nothing returns the note and leaves the store as it was. */
  lemma EmptyUpdateChangesNothing(db: Db, noteId: nat, userId: nat)
    requires Owns(db, noteId, userId)
    ensures var r := UpdateNote(db, noteId, NoteUpdate(Unset, Unset, Unset, Unset, Unset, Unset, Unset), userId);
            r.db == db && r.note == Some(db.notes[noteId])
  {
    var r := UpdateNote(db, noteId, NoteUpdate(Unset, Unset, Unset, Unset, Unset, Unset, Unset), userId);
    assert r.db.notes == db.notes;
    assert r.db.metadata == db.metadata;
  }

  /** An update keeps every note paired with its metadata row. */
  lemma UpdateKeepsPairing(db: Db, noteId: nat, u: NoteUpdate, userId: nat)
    requires Paired(db)
    ensures Paired(UpdateNote(db, noteId, u, userId).db)
  {
  }

  // ---------------------------------------------------------------------------
  // update_metadata

  datatype MetadataUpdated = MetadataUpdated(metadata: Option<NoteMetadata>, db: Db)

  /** `update_metadata`: applies the set fields to the metadata row of `noteId`, if it exists (no owner filter). */
  function UpdateMetadata(db: Db, noteId: nat, u: NoteMetadataUpdate): (r: MetadataUpdated)
    ensures noteId !in db.metadata ==> r == MetadataUpdated(None, db)
    ensures noteId in db.metadata ==>
      && r.db.metadata.Keys == db.metadata.Keys
      && r.metadata == Some(r.db.metadata[noteId])
      && r.db.notes == db.notes && r.db.folders == db.folders
      && (forall k :: k in db.metadata && k != noteId ==> r.db.metadata[k] == db.metadata[k])
      && Respects(u.title, db.metadata[noteId].title, r.db.metadata[noteId].title)
      && Respects(u.dateCreated, db.metadata[noteId].dateCreated, r.db.metadata[noteId].dateCreated)
      && r.db.metadata[noteId].userId == db.metadata[noteId].userId
      && r.db.metadata[noteId].contentCategory == db.metadata[noteId].contentCategory
      && r.db.metadata[noteId].emojiRepresentation == db.metadata[noteId].emojiRepresentation
  {
    if noteId !in db.metadata then
      MetadataUpdated(None, db)
    else
      var m := db.metadata[noteId];
      var m' := m.(title := Patched(u.title, m.title), dateCreated := Patched(u.dateCreated, m.dateCreated));
      MetadataUpdated(Some(m'), db.(metadata := db.metadata[noteId := m']))
  }

  /** Applying the same metadata update twice has the effect of applying it once. */
  lemma {:induction false} UpdateMetadataIdempotent(db: Db, noteId: nat, u: NoteMetadataUpdate)
    ensures var once := UpdateMetadata(db, noteId, u);
            UpdateMetadata(once.db, noteId, u) == once
  {
    var once := UpdateMetadata(db, noteId, u);
    if noteId in db.metadata {
      var twice := UpdateMetadata(once.db, noteId, u);
      assert twice.db.metadata[noteId] == once.db.metadata[noteId];
      assert twice.db.metadata == once.db.metadata;
    }
  }

  /** A metadata update keeps every owner's listing to the same notes, and the listing shows the new title. */
  lemma UpdateMetadataKeepsListing(db: Db, noteId: nat, u: NoteMetadataUpdate, userId: nat)
    ensures var after := UpdateMetadata(db, noteId, u).db;
            && GetAllNotes(after, userId).Keys == GetAllNotes(db, userId).Keys
            && (noteId in GetAllNotes(db, userId) ==>
                  GetAllNotes(after, userId)[noteId].title == Patched(u.title, db.metadata[noteId].title))
  {
  }

  /** Adding a metadata row lists it for its owner and for nobody else. */
  lemma AddMetadataThenList(db: Db, userId: nat, noteId: nat, c: NoteMetadataCreate, other: nat)
    requires noteId !in db.metadata && other != userId
    ensures var after := AddMetadata(db, userId, noteId, c);
            && GetAllNotes(after, userId).Keys == GetAllNotes(db, userId).Keys + {noteId}
            && GetAllNotes(after, userId)[noteId].title == c.title
            && GetAllNotes(after, other) == GetAllNotes(db, other)
  {
    var after := AddMetadata(db, userId, noteId, c);
    assert GetAllNotes(after, other).Keys == GetAllNotes(db, other).Keys;
  }

  // ---------------------------------------------------------------------------
  // move_folder / remove_folder

  datatype Moved = Moved(notes: map<nat, Note>, db: Db)

  /**
   `move_folder`: every note in `folderId` gets `newFolderId` (any owner); the
   moved notes, as they are after the move, are returned.
   */
  function MoveFolder(db: Db, folderId: nat, newFolderId: Option<nat>): (r: Moved)
    ensures r.db.notes.Keys == db.notes.Keys
    ensures r.db.metadata == db.metadata && r.db.folders == db.folders
    ensures r.notes.Keys == NotesInFolder(db.notes, folderId)
    ensures forall id :: id in r.notes ==>
      r.notes[id] == r.db.notes[id] && r.notes[id] == db.notes[id].(folderId := newFolderId)
    ensures forall id :: id in db.notes && id !in r.notes ==> r.db.notes[id] == db.notes[id]
  {
    var notes := map id | id in db.notes ::
      if db.notes[id].folderId == Some(folderId) then db.notes[id].(folderId := newFolderId) else db.notes[id];
    Moved(map id | id in NotesInFolder(db.notes, folderId) :: notes[id], db.(notes := notes))
  }

  /** `remove_folder`: unlinks the notes of `folderId`, deletes the folder, and deletes no note. */
  function RemoveFolder(db: Db, folderId: nat): (r: Moved)
    ensures r.db.notes.Keys == db.notes.Keys && r.db.metadata == db.metadata
    ensures r.db.folders == db.folders - {folderId}
    ensures NotesInFolder(r.db.notes, folderId) == {}
    ensures r.notes.Keys == NotesInFolder(db.notes, folderId)
    ensures forall id :: id in r.notes ==> r.db.notes[id] == db.notes[id].(folderId := None) == r.notes[id]
    ensures forall id :: id in db.notes && id !in r.notes ==> r.db.notes[id] == db.notes[id]
  {
    var m := MoveFolder(db, folderId, None);
    Moved(m.notes, m.db.(folders := m.db.folders - {folderId}))
  }

  /** Moving a folder's notes elsewhere empties it. */
  lemma MoveEmptiesSource(db: Db, folderId: nat, newFolderId: Option<nat>)
    requires newFolderId != Some(folderId)
    ensures NotesInFolder(MoveFolder(db, folderId, newFolderId).db.notes, folderId) == {}
  {
  }

  /** After `remove_folder`, the owner's unfoldered notes are the old ones plus the owner's notes from that folder. */
  lemma {:induction false} RemoveFolderUnfolders(db: Db, folderId: nat, userId: nat)
    ensures GetUnfolderedNotes(RemoveFolder(db, folderId).db, userId).Keys
         == GetUnfolderedNotes(db, userId).Keys
          + (set id | id in NotesInFolder(db.notes, folderId) && db.notes[id].userId == userId)
  {
    var after := RemoveFolder(db, folderId);
    var lhs := GetUnfolderedNotes(after.db, userId).Keys;
    var rhs := GetUnfolderedNotes(db, userId).Keys
             + (set id | id in NotesInFolder(db.notes, folderId) && db.notes[id].userId == userId);
    forall id | id in lhs ensures id in rhs {
      if id !in after.notes {
        assert after.db.notes[id] == db.notes[id];
      }
    }
    forall id | id in rhs ensures id in lhs {
      if id in after.notes {
        assert after.db.notes[id] == db.notes[id].(folderId := None);
      } else {
        assert after.db.notes[id] == db.notes[id];
      }
    }
  }

  /**
   The notes `move_folder` returns are the ones `get_notes_by_folder` listed
   for the source; moved into another folder, they join that folder's listing.
   */
  lemma MoveFolderMovesListing(db: Db, folderId: nat, newFolderId: nat)
    requires newFolderId != folderId
    ensures MoveFolder(db, folderId, Some(newFolderId)).notes.Keys == GetNotesByFolder(db, folderId).Keys
    ensures var after := MoveFolder(db, folderId, Some(newFolderId)).db;
            && GetNotesByFolder(after, newFolderId).Keys
               == GetNotesByFolder(db, newFolderId).Keys + GetNotesByFolder(db, folderId).Keys
            && GetNotesByFolder(after, folderId) == map[]
  {
    var after := MoveFolder(db, folderId, Some(newFolderId)).db;
    assert NotesInFolder(after.notes, newFolderId) == NotesInFolder(db.notes, newFolderId) + NotesInFolder(db.notes, folderId);
    assert NotesInFolder(after.notes, folderId) == {};
  }

  /** Moving or unlinking notes never breaks the pairing of notes with metadata. */
  lemma FolderMovesKeepPairing(db: Db, folderId: nat, newFolderId: Option<nat>)
    requires Paired(db)
    ensures Paired(MoveFolder(db, folderId, newFolderId).db)
    ensures Paired(RemoveFolder(db, folderId).db)
  {
  }
}

=== FILE: store.dfy ===
/**
 The persistent store of the notes backend as three finite maps: notes and
 folders keyed by their integer id, and note metadata keyed by the id of the
 note it describes (its primary key is `note_id`). Records carry no id of
 their own; the key is the id.
 */
module Store {
  import opened Common

  /** One generated flashcard. */
  datatype Flashcard = Flashcard(question: string, answer: string)

  /** One generated multiple-choice question; `answer` indexes `choices`. */
  datatype Quiz = Quiz(question: string, choices: seq<string>, answer: int)

  /** A note row. `flashcards` and `quizzes` are `None` until generated. */
  datatype Note = Note(
    userId: nat,
    folderId: Option<nat>,
    title: string,
    summary: string,
    transcriptText: string,
    language: string,
    contentUrl: Option<string>,
    flashcards: Option<seq<Flashcard>>,
    quizzes: Option<seq<Quiz>>)

  /** The display companion of a note; `dateCreated` is a timestamp supplied by the caller. */
  datatype NoteMetadata = NoteMetadata(
    userId: nat,
    title: string,
    contentCategory: string,
    emojiRepresentation: string,
    dateCreated: int)

  /** A folder row; `updatedAt` is only set by a rename. */
  datatype Folder = Folder(userId: nat, name: string, createdAt: int, updatedAt: Option<int>)

  datatype Db = Db(notes: map<nat, Note>, metadata: map<nat, NoteMetadata>, folders: map<nat, Folder>)

  /** The fields a new note is created from. */
  datatype NoteCreate = NoteCreate(
    title: string,
    summary: string,
    transcriptText: string,
    language: string,
    contentUrl: Option<string>,
    flashcards: Option<seq<Flashcard>>,
    quizzes: Option<seq<Quiz>>)

  datatype NoteMetadataCreate = NoteMetadataCreate(
    title: string,
    contentCategory: string,
    emojiRepresentation: string,
    dateCreated: int)

  /** A field of a partial update: left out of the request, or set to a value. */
  datatype Patch<+T> = Unset | Set(value: T)

  /** A partial note update; only `Set` fields are written. */
  datatype NoteUpdate = NoteUpdate(
    title: Patch<string>,
    summary: Patch<string>,
    transcriptText: Patch<string>,
    language: Patch<string>,
    contentUrl: Patch<Option<string>>,
    flashcards: Patch<Option<seq<Flashcard>>>,
    quizzes: Patch<Option<seq<Quiz>>>)

  datatype NoteMetadataUpdate = NoteMetadataUpdate(title: Patch<string>, dateCreated: Patch<int>)

  /** The value a field has after `setattr` is applied for the set fields only. */
  function Patched<T>(p: Patch<T>, current: T): T {
    match p
    case Unset => current
    case Set(v) => v
  }

  /** Every note's folder exists (the `folder_id` foreign key). */
  predicate FolderLinksValid(db: Db) {
    forall id :: id in db.notes && db.notes[id].folderId.Some? ==> db.notes[id].folderId.value in db.folders
  }

  /** Every note has exactly one metadata row and vice versa. */
  predicate Paired(db: Db) {
    db.metadata.Keys == db.notes.Keys
  }

  /** Ids of the notes whose folder is `folderId`. */
  function NotesInFolder(notes: map<nat, Note>, folderId: nat): set<nat> {
    set id | id in notes && notes[id].folderId == Some(folderId)
  }
}

=== FILE: strings.dfy ===
/**
 The few Python `str` operations the backend relies on, stated over `seq<char>`:
 `isdigit`, `strip`, the `in` substring test, `str.join`, `splitlines`,
 `rfind` and `str(int)` for non-negative integers.

 Character classes cover the ASCII and Latin-1 members of Python's classes
 plus the Unicode separators Python treats as whitespace or line breaks;
 non-ASCII decimal digits are not counted as digits here.
 */
module Strings {

  /** An ASCII decimal digit, the only kind `str(n)` writes. */
  predicate IsDigitChar(c: char) {
    '0' <= c <= '9'
  }

  /** Python `str.isdigit` on a character: the ASCII digits and the Latin-1 superscripts one, two and three. */
  predicate IsDigitLike(c: char) {
    IsDigitChar(c) || c == '\U{00B9}' || c == '\U{00B2}' || c == '\U{00B3}'
  }

  /** `s.isdigit()`: true for a non-empty string of digit characters only. */
  predicate IsDigitString(s: string) {
    |s| > 0 && forall i :: 0 <= i < |s| ==> IsDigitLike(s[i])
  }

  /** Characters Python's `str.isspace` accepts (and so `strip()` removes). */
  predicate IsSpace(c: char) {
    || c == ' ' || c == '\t' || c == '\n' || c == '\r'
    || c == '\U{000B}' || c == '\U{000C}'
    || ('\U{001C}' <= c <= '\U{001F}')
    || c == '\U{0085}' || c == '\U{00A0}' || c == '\U{1680}'
    || ('\U{2000}' <= c <= '\U{200A}')
    || c == '\U{2028}' || c == '\U{2029}' || c == '\U{202F}' || c == '\U{205F}' || c == '\U{3000}'
  }

  /** Characters at which Python's `str.splitlines` ends a line. */
  predicate IsLineBreak(c: char) {
    || c == '\n' || c == '\r' || c == '\U{000B}' || c == '\U{000C}'
    || c == '\U{001C}' || c == '\U{001D}' || c == '\U{001E}'
    || c == '\U{0085}' || c == '\U{2028}' || c == '\U{2029}'
  }

  predicate NoLineBreak(s: string) {
    forall i :: 0 <= i < |s| ==> !IsLineBreak(s[i])
  }

  predicate Excludes(s: string, c: char) {
    forall i :: 0 <= i < |s| ==> s[i] != c
  }

  // ---------------------------------------------------------------------------
  // strip

  /** `s.lstrip()`: the longest suffix of `s` that does not start with whitespace. */
  function StripLeft(s: string): (r: string)
    ensures |r| <= |s| && r == s[|s| - |r|..]
    ensures forall i :: 0 <= i < |s| - |r| ==> IsSpace(s[i])
    ensures r == [] || !IsSpace(r[0])
  {
    if s == [] || !IsSpace(s[0]) then s else StripLeft(s[1..])
  }

  /** `s.rstrip()`: the longest prefix of `s` that does not end with whitespace. */
  function StripRight(s: string): (r: string)
    ensures |r| <= |s| && r == s[..|r|]
    ensures forall i :: |r| <= i < |s| ==> IsSpace(s[i])
    ensures r == [] || !IsSpace(r[|r| - 1])
  {
    if s == [] || !IsSpace(s[|s| - 1]) then s else StripRight(s[..|s| - 1])
  }

  predicate AllSpace(s: string) {
    forall i :: 0 <= i < |s| ==> IsSpace(s[i])
  }

  /** `s.strip()`: `s` less exactly its leading and trailing whitespace. */
  function Strip(s: string): (r: string)
    ensures exists k :: OccursAt(s, r, k) && AllSpace(s[..k]) && AllSpace(s[k + |r|..])
    ensures r == [] || (!IsSpace(r[0]) && !IsSpace(r[|r| - 1]))
  {
    var l := StripLeft(s);
    var r := StripRight(l);
    TrimmedBetweenSpaces(s, l, r);
    r
  }

  /**
   Removing a whitespace prefix of `s` (leaving `l`) and then a whitespace
   suffix of `l` (leaving `r`) leaves `r` between whitespace in `s`.
   */
  lemma TrimmedBetweenSpaces(s: string, l: string, r: string)
    requires |l| <= |s| && l == s[|s| - |l|..] && forall i :: 0 <= i < |s| - |l| ==> IsSpace(s[i])
    requires l == [] || !IsSpace(l[0])
    requires |r| <= |l| && r == l[..|r|] && forall i :: |r| <= i < |l| ==> IsSpace(l[i])
    requires r == [] || !IsSpace(r[|r| - 1])
    ensures exists k :: OccursAt(s, r, k) && AllSpace(s[..k]) && AllSpace(s[k + |r|..])
    ensures r == [] || (!IsSpace(r[0]) && !IsSpace(r[|r| - 1]))
  {
    var k := |s| - |l|;
    PrefixOfSuffix(s, l, r);
    SpacesBefore(s, k);
    SpacesFrom(l, |r|);
    assert OccursAt(s, r, k);
  }

  /** A prefix `r` of a suffix `l` of `s` sits in `s` where `l` starts, and the rest of `l` is the rest of `s`. */
  lemma PrefixOfSuffix(s: string, l: string, r: string)
    requires |l| <= |s| && l == s[|s| - |l|..]
    requires |r| <= |l| && r == l[..|r|]
    ensures s[|s| - |l|..|s| - |l| + |r|] == r
    ensures s[|s| - |l| + |r|..] == l[|r|..]
    ensures r != [] ==> r[0] == l[0]
  {
  }

  /** A whitespace prefix, taken as a slice, is all whitespace. */
  lemma SpacesBefore(s: string, k: int)
    requires 0 <= k <= |s|
    requires forall i :: 0 <= i < k ==> IsSpace(s[i])
    ensures AllSpace(s[..k])
  {
    forall i | 0 <= i < k ensures IsSpace(s[..k][i]) {
      assert s[..k][i] == s[i];
    }
  }

  /** A whitespace suffix, taken as a slice, is all whitespace. */
  lemma SpacesFrom(s: string, k: int)
    requires 0 <= k <= |s|
    requires forall i :: k <= i < |s| ==> IsSpace(s[i])
    ensures AllSpace(s[k..])
  {
    forall i | 0 <= i < |s| - k ensures IsSpace(s[k..][i]) {
      assert s[k..][i] == s[k + i];
    }
  }

  /** A line strips to the empty string exactly when it is all whitespace. */
  lemma StripEmptyIff(s: string)
    ensures Strip(s) == [] <==> AllSpace(s)
  {
    var r := Strip(s);
    var k :| OccursAt(s, r, k) && AllSpace(s[..k]) && AllSpace(s[k + |r|..]);
    EmptyBetweenSpaces(s, r, k);
  }

  /** What sits between a whitespace prefix and a whitespace suffix, not starting with whitespace, is empty iff `s` is all whitespace. */
  lemma EmptyBetweenSpaces(s: string, r: string, k: int)
    requires OccursAt(s, r, k) && AllSpace(s[..k]) && AllSpace(s[k + |r|..])
    requires r == [] || !IsSpace(r[0])
    ensures r == [] <==> AllSpace(s)
  {
    if r == [] {
      forall i | 0 <= i < |s| ensures IsSpace(s[i]) {
        if i < k {
          assert s[..k][i] == s[i];
        } else {
          assert s[k..][i - k] == s[i];
        }
      }
    } else {
      assert s[k..k + |r|][0] == s[k];
    }
  }

  // ---------------------------------------------------------------------------
  // substring test

  /** `t` occurs in `s` starting at index `i`. */
  predicate OccursAt(s: string, t: string, i: int) {
    0 <= i && i + |t| <= |s| && s[i..i + |t|] == t
  }

  /** Python's `t in s`. */
  function Contains(s: string, t: string): (b: bool)
    ensures b <==> exists i :: OccursAt(s, t, i)
    decreases |s|
  {
    if |t| > |s| then
      false
    else if s[..|t|] == t then
      assert OccursAt(s, t, 0);
      true
    else
      var b := Contains(s[1..], t);
      if b then
        var i :| OccursAt(s[1..], t, i);
        assert s[i + 1..i + 1 + |t|] == s[1..][i..i + |t|];
        assert OccursAt(s, t, i + 1);
        b
      else
        forall i | OccursAt(s, t, i) && i != 0 ensures OccursAt(s[1..], t, i - 1) {
          assert s[1..][i - 1..i - 1 + |t|] == s[i..i + |t|];
        }
        b
  }

  // ---------------------------------------------------------------------------
  // join

  /** `sep.join(parts)`. */
  function Join(sep: string, parts: seq<string>): (r: string)
    ensures |parts| == 0 ==> r == []
    ensures |parts| > 0 ==> |parts[0]| <= |r| && r[..|parts[0]|] == parts[0]
    decreases |parts|
  {
    if |parts| == 0 then []
    else if |parts| == 1 then parts[0]
    else parts[0] + sep + Join(sep, parts[1..])
  }

  /** Appending a part appends a separator and the part, which is how the result grows line by line. */
  lemma {:induction false} JoinSnoc(sep: string, parts: seq<string>, x: string)
    requires |parts| > 0
    ensures Join(sep, parts + [x]) == Join(sep, parts) + sep + x
    decreases |parts|
  {
    if |parts| == 1 {
      assert (parts + [x])[1..] == [x];
    } else {
      assert (parts + [x])[1..] == parts[1..] + [x];
      JoinSnoc(sep, parts[1..], x);
    }
  }

  /** Joining break-free parts with a break-free separator yields a break-free string. */
  lemma {:induction false} JoinNoLineBreak(sep: string, parts: seq<string>)
    requires NoLineBreak(sep)
    requires forall i :: 0 <= i < |parts| ==> NoLineBreak(parts[i])
    ensures NoLineBreak(Join(sep, parts))
    decreases |parts|
  {
    if |parts| > 1 {
      JoinNoLineBreak(sep, parts[1..]);
      var rest := Join(sep, parts[1..]);
      var r := parts[0] + sep + rest;
      forall i | 0 <= i < |r| ensures !IsLineBreak(r[i]) {
        if i < |parts[0]| {
          assert r[i] == parts[0][i];
        } else if i < |parts[0]| + |sep| {
          assert r[i] == sep[i - |parts[0]|];
        } else {
          assert r[i] == rest[i - |parts[0]| - |sep|];
        }
      }
    }
  }

  // ---------------------------------------------------------------------------
  // splitlines

  /** Index of the first line break in `s`, or `|s|` when there is none. */
  function FirstBreak(s: string): (k: nat)
    ensures k <= |s|
    ensures k < |s| ==> IsLineBreak(s[k])
    ensures NoLineBreak(s[..k])
  {
    if s == [] then 0
    else if IsLineBreak(s[0]) then 0
    else
      var k := 1 + FirstBreak(s[1..]);
      assert s[..k] == [s[0]] + s[1..][..k - 1];
      k
  }

  /** `s.splitlines()`: a `"\r\n"` pair is one break, and no empty line follows a final break. */
  function SplitLines(s: string): (lines: seq<string>)
    ensures forall i :: 0 <= i < |lines| ==> NoLineBreak(lines[i])
    ensures lines == [] <==> s == []
    decreases |s|
  {
    if s == [] then []
    else
      var k := FirstBreak(s);
      if k == |s| then [s]
      else
        var next := if s[k] == '\r' && k + 1 < |s| && s[k + 1] == '\n' then k + 2 else k + 1;
        [s[..k]] + SplitLines(s[next..])
  }

  /** For text that only uses `'\n'` and does not end with it, splitting and re-joining with `"\n"` is the identity. */
  lemma {:induction false} SplitLinesJoin(s: string)
    requires forall i :: 0 <= i < |s| && IsLineBreak(s[i]) ==> s[i] == '\n'
    requires s != [] && s[|s| - 1] != '\n'
    ensures Join("\n", SplitLines(s)) == s
    decreases |s|
  {
    var k := FirstBreak(s);
    if k < |s| {
      var rest := s[k + 1..];
      assert s[k] == '\n';
      assert k + 1 < |s|;
      assert rest[|rest| - 1] == s[|s| - 1];
      forall i | 0 <= i < |rest| && IsLineBreak(rest[i]) ensures rest[i] == '\n' {
        assert rest[i] == s[k + 1 + i];
      }
      SplitLinesJoin(rest);
      var tail := SplitLines(rest);
      assert SplitLines(s) == [s[..k]] + tail;
      assert |tail| > 0;
      assert s == s[..k] + "\n" + rest;
    }
  }

  /** A break-free string holds no line break, so it is a single line. */
  lemma {:induction false} FirstBreakNone(s: string)
    requires NoLineBreak(s)
    ensures FirstBreak(s) == |s|
    decreases |s|
  {
    if s != [] {
      FirstBreakNone(s[1..]);
    }
  }

  /** The first break of `a + [c] + b` is `c` when `a` holds none. */
  lemma {:induction false} FirstBreakAfter(a: string, c: char, b: string)
    requires NoLineBreak(a) && IsLineBreak(c)
    ensures FirstBreak(a + [c] + b) == |a|
    decreases |a|
  {
    if a != [] {
      assert (a + [c] + b)[1..] == a[1..] + [c] + b;
      FirstBreakAfter(a[1..], c, b);
    }
  }

  /** Joining non-empty, break-free lines with `"\n"` and splitting again gives the lines back. */
  lemma {:induction false} SplitJoinLines(ts: seq<string>)
    requires forall i :: 0 <= i < |ts| ==> ts[i] != [] && NoLineBreak(ts[i])
    ensures SplitLines(Join("\n", ts)) == ts
    decreases |ts|
  {
    if |ts| == 1 {
      FirstBreakNone(ts[0]);
    } else if |ts| > 1 {
      var rest := Join("\n", ts[1..]);
      var s := ts[0] + "\n" + rest;
      assert s == ts[0] + ['\n'] + rest;
      FirstBreakAfter(ts[0], '\n', rest);
      var k := |ts[0]|;
      assert s[..k] == ts[0];
      assert s[k + 1..] == rest;
      SplitJoinLines(ts[1..]);
      assert SplitLines(s) == [ts[0]] + ts[1..];
    }
  }

  // ---------------------------------------------------------------------------
  // rfind

  /** `s.rfind(c)`: the index of the last `c` in `s`, or -1. */
  function LastIndexOf(s: string, c: char): (k: int)
    ensures -1 <= k < |s|
    ensures k >= 0 ==> s[k] == c
    ensures forall j :: k < j < |s| ==> s[j] != c
  {
    if s == [] then -1
    else if s[|s| - 1] == c then |s| - 1
    else LastIndexOf(s[..|s| - 1], c)
  }

  /** The contract of `LastIndexOf` determines it: a `c` at `k` with none after it is the last one. */
  lemma LastIndexOfIs(s: string, c: char, k: int)
    requires -1 <= k < |s| && (k >= 0 ==> s[k] == c)
    requires forall j :: k < j < |s| ==> s[j] != c
    ensures LastIndexOf(s, c) == k
  {
  }

  /** `rfind` on a concatenation finds the last `c` of the right part, if there is one, else that of the left part. */
  lemma LastIndexOfAppend(a: string, b: string, c: char)
    ensures LastIndexOf(a + b, c) == if LastIndexOf(b, c) >= 0 then |a| + LastIndexOf(b, c) else LastIndexOf(a, c)
  {
    var s := a + b;
    var kb := LastIndexOf(b, c);
    if kb >= 0 {
      assert s[|a| + kb] == b[kb];
      forall j | |a| + kb < j < |s| ensures s[j] != c {
        assert s[j] == b[j - |a|];
      }
      LastIndexOfIs(s, c, |a| + kb);
    } else {
      var ka := LastIndexOf(a, c);
      if ka >= 0 {
        assert s[ka] == a[ka];
      }
      forall j | ka < j < |s| ensures s[j] != c {
        if j < |a| {
          assert s[j] == a[j];
        } else {
          assert s[j] == b[j - |a|];
        }
      }
      LastIndexOfIs(s, c, ka);
    }
  }

  // ---------------------------------------------------------------------------
  // str(n)

  function DigitChar(d: nat): (c: char)
    requires d < 10
    ensures IsDigitChar(c)
  {
    ['0', '1', '2', '3', '4', '5', '6', '7', '8', '9'][d]
  }

  function DigitValue(c: char): nat
    requires IsDigitChar(c)
  {
    (c as int - '0' as int) as nat
  }

  /** Value of a decimal numeral; the reading half of the `str(n)` round trip. */
  function DecimalValue(s: string): nat
    requires forall i :: 0 <= i < |s| ==> IsDigitChar(s[i])
  {
    if s == [] then 0 else DecimalValue(s[..|s| - 1]) * 10 + DigitValue(s[|s| - 1])
  }

  /** `str(n)` for a non-negative integer: a non-empty string of ASCII digits. */
  function NatToDecimal(n: nat): (r: string)
    ensures |r| > 0 && forall i :: 0 <= i < |r| ==> IsDigitChar(r[i])
  {
    if n < 10 then [DigitChar(n)] else NatToDecimal(n / 10) + [DigitChar(n % 10)]
  }

  /** Reading the rendered numeral back gives the number. */
  lemma {:induction false} DecimalRoundTrip(n: nat)
    ensures DecimalValue(NatToDecimal(n)) == n
  {
    var r := NatToDecimal(n);
    if n < 10 {
      assert r[..0] == [];
    } else {
      DecimalRoundTrip(n / 10);
      assert r[..|r| - 1] == NatToDecimal(n / 10);
    }
  }
}

=== FILE: transcript_extraction.dfy ===
/**
 Single-source transcript extraction: validate the video id, fetch the caption
 entries for it, and join their texts; fetch errors are classified into
 "transcript unavailable" and "unknown". The caption service is the parameter
 `fetch`, called with the video id.
 */
module TranscriptExtraction {
  import opened Common
  import opened Strings
  import opened VideoUrl

  /** The `type` strings of the failure dicts the transcript modules return. */
  datatype ErrorKind = InvalidURL | TranscriptUnavailable | UnknownError | Error

  datatype TranscriptError = TranscriptError(kind: ErrorKind, message: string)

  datatype Transcript = Transcript(videoId: string, transcript: string)

  const InvalidUrlMessage: string := "The provided YouTube URL is invalid."
  const UnavailableMessage: string := "Transcript could not be retrieved. The video might not have subtitles."

  /** What the caption service does for a video id: entry texts, `CouldNotRetrieveTranscript`, or another exception. */
  datatype CaptionFetch = Entries(texts: seq<string>) | CouldNotRetrieve | FetchRaised(message: string)

  /** `generate_transcript`: the entries' texts joined by newlines, or a classified failure. */
  function GenerateTranscript(u: ParsedUrl, fetch: string -> CaptionFetch): (r: Result<Transcript, TranscriptError>)
    ensures (r.Err? && r.error.kind == InvalidURL) <==> !IsValidVideoId(GetVideoId(u))
    ensures !IsValidVideoId(GetVideoId(u)) ==> r.error.message == InvalidUrlMessage
    ensures r.Ok? <==> IsValidVideoId(GetVideoId(u)) && fetch(GetVideoId(u).value).Entries?
    ensures r.Ok? ==>
      r.value.videoId == GetVideoId(u).value && r.value.transcript == Join("\n", fetch(r.value.videoId).texts)
    ensures IsValidVideoId(GetVideoId(u)) && fetch(GetVideoId(u).value).CouldNotRetrieve? ==>
              r == Err(TranscriptError(TranscriptUnavailable, UnavailableMessage))
    ensures IsValidVideoId(GetVideoId(u)) && fetch(GetVideoId(u).value).FetchRaised? ==>
              r == Err(TranscriptError(UnknownError, fetch(GetVideoId(u).value).message))
  {
    var id := GetVideoId(u);
    if !IsValidVideoId(id) then
      Err(TranscriptError(InvalidURL, InvalidUrlMessage))
    else
      match fetch(id.value)
      case Entries(texts) => Ok(Transcript(id.value, Join("\n", texts)))
      case CouldNotRetrieve => Err(TranscriptError(TranscriptUnavailable, UnavailableMessage))
      case FetchRaised(m) => Err(TranscriptError(UnknownError, m))
  }

  /** An invalid URL is rejected before the caption service is asked anything. */
  lemma InvalidUrlFetchesNothing(u: ParsedUrl, f: string -> CaptionFetch, g: string -> CaptionFetch)
    requires !IsValidVideoId(GetVideoId(u))
    ensures GenerateTranscript(u, f) == GenerateTranscript(u, g)
  {
  }

  /** The caption service is only asked about the video id of the URL. */
  lemma FetchesOnlyTheVideoId(u: ParsedUrl, f: string -> CaptionFetch, g: string -> CaptionFetch)
    requires IsValidVideoId(GetVideoId(u)) && f(GetVideoId(u).value) == g(GetVideoId(u).value)
    ensures GenerateTranscript(u, f) == GenerateTranscript(u, g)
  {
  }

  /** When every entry is one non-empty line, the lines of the transcript are exactly the entries, in order. */
  lemma TranscriptLinesAreEntries(u: ParsedUrl, fetch: string -> CaptionFetch)
    requires IsValidVideoId(GetVideoId(u)) && fetch(GetVideoId(u).value).Entries?
    requires var ts := fetch(GetVideoId(u).value).texts;
             forall i :: 0 <= i < |ts| ==> ts[i] != [] && NoLineBreak(ts[i])
    ensures SplitLines(GenerateTranscript(u, fetch).value.transcript) == fetch(GetVideoId(u).value).texts
  {
    SplitJoinLines(fetch(GetVideoId(u).value).texts);
  }
}

=== FILE: video_url.dfy ===
/**
 The video-id parser shared, in two identical copies, by both transcript
 modules. A URL arrives already parsed: its host name (lower-cased, as
 `urlparse(...).hostname` gives it, or `None`), its path, and its query as the
 ordered list of percent-decoded `key=value` pairs.
 */
module VideoUrl {
  import opened Common

  datatype QueryParam = QueryParam(key: string, value: string)

  datatype ParsedUrl = ParsedUrl(hostname: Option<string>, path: string, query: seq<QueryParam>)

  /** A source URL as typed by the client, together with its parse. */
  datatype SourceUrl = SourceUrl(raw: string, parsed: ParsedUrl)

  /** A pair that `parse_qs` keeps under `key`: blank values are dropped. */
  predicate Keeps(p: QueryParam, key: string) {
    p.key == key && p.value != []
  }

  /** `parse_qs(query).get(key, [])`: the non-blank values of `key`, in order. */
  function QueryValues(query: seq<QueryParam>, key: string): (vs: seq<string>)
    ensures |vs| == 0 <==> forall i :: 0 <= i < |query| ==> !Keeps(query[i], key)
    ensures |vs| > 0 ==> exists i :: 0 <= i < |query| && query[i] == QueryParam(key, vs[0])
                                  && forall j :: 0 <= j < i ==> !Keeps(query[j], key)
  {
    if query == [] then []
    else
      var rest := QueryValues(query[1..], key);
      if Keeps(query[0], key) then
        [query[0].value] + rest
      else
        if |rest| > 0 then
          var i :| 0 <= i < |query[1..]| && query[1..][i] == QueryParam(key, rest[0])
                   && forall j :: 0 <= j < i ==> !Keeps(query[1..][j], key);
          assert query[i + 1] == QueryParam(key, rest[0]);
          assert forall j :: 1 <= j < i + 1 ==> query[j] == query[1..][j - 1];
          rest
        else
          assert forall i :: 1 <= i < |query| ==> query[i] == query[1..][i - 1];
          rest
  }

  predicate IsYoutubeHost(h: Option<string>) {
    h == Some("www.youtube.com") || h == Some("youtube.com")
  }

  /** Python's `s[1:]`: never fails, empty for an empty string. */
  function DropFirst(s: string): string {
    if s == [] then [] else s[1..]
  }

  /**
   `get_video_id`: for `youtu.be` the path without its first character, for
   the two youtube.com hosts the first non-blank `v` query value, otherwise
   `None`. An empty id is possible (`https://youtu.be/`).
   */
  function GetVideoId(u: ParsedUrl): (r: Option<string>)
    ensures r.Some? ==> u.hostname == Some("youtu.be") || IsYoutubeHost(u.hostname)
    ensures u.hostname == Some("youtu.be") ==> r.Some? && (u.path == [] || u.path == [u.path[0]] + r.value)
    ensures u.hostname == Some("youtu.be") && u.path == [] ==> r == Some([])
    ensures IsYoutubeHost(u.hostname) ==>
      (r.Some? <==> exists i :: 0 <= i < |u.query| && Keeps(u.query[i], "v"))
    ensures IsYoutubeHost(u.hostname) && r.Some? ==>
      exists i :: 0 <= i < |u.query| && u.query[i] == QueryParam("v", r.value)
               && forall j :: 0 <= j < i ==> !Keeps(u.query[j], "v")
  {
    if u.hostname == Some("youtu.be") then
      Some(DropFirst(u.path))
    else if IsYoutubeHost(u.hostname) then
      var vs := QueryValues(u.query, "v");
      if |vs| == 0 then None else Some(vs[0])
    else
      None
  }

  /** Python's `not video_id` fails: the id is present and non-empty. */
  predicate IsValidVideoId(id: Option<string>) {
    id.Some? && id.value != []
  }

  /** The short-link form `https://youtu.be/<id>`. */
  function ShortLink(id: string): ParsedUrl {
    ParsedUrl(Some("youtu.be"), "/" + id, [])
  }

  /** The watch form `https://www.youtube.com/watch?<before>&v=<id>`. */
  function WatchLink(before: seq<QueryParam>, id: string): ParsedUrl {
    ParsedUrl(Some("www.youtube.com"), "/watch", before + [QueryParam("v", id)])
  }

  /** The id written into a short link is the id parsed back out of it. */
  lemma ShortLinkRoundTrip(id: string)
    ensures GetVideoId(ShortLink(id)) == Some(id)
  {
  }

  /** The id written into a watch link is parsed back, whatever other parameters precede it. */
  lemma WatchLinkRoundTrip(before: seq<QueryParam>, id: string)
    requires id != []
    requires forall i :: 0 <= i < |before| ==> before[i].key != "v"
    ensures GetVideoId(WatchLink(before, id)) == Some(id)
  {
    var u := WatchLink(before, id);
    var r := GetVideoId(u);
    assert Keeps(u.query[|before|], "v");
    var i :| 0 <= i < |u.query| && u.query[i] == QueryParam("v", r.value)
             && forall j :: 0 <= j < i ==> !Keeps(u.query[j], "v");
    assert i == |before|;
  }

  /** A blank `v=` is skipped in favour of a later non-blank one, as `parse_qs` drops blank values. */
  lemma BlankVIsSkipped(id: string)
    requires id != []
    ensures GetVideoId(ParsedUrl(Some("youtube.com"), "/watch", [QueryParam("v", ""), QueryParam("v", id)])) == Some(id)
  {
    var q := [QueryParam("v", ""), QueryParam("v", id)];
    assert q[1..] == [QueryParam("v", id)];
    assert q[1..][1..] == [];
    assert QueryValues(q[1..][1..], "v") == [];
    assert QueryValues(q[1..], "v") == [id];
    assert !Keeps(q[0], "v");
    assert QueryValues(q, "v") == [id];
  }
}

=== FILE: youtube_transcript.dfy ===
/**
 Two-stage transcript resolution for a YouTube URL: the video's captions
 first (as SRT, reduced to plain text), then speech-to-text on the downloaded
 audio. Both upstream services are parameters called with the URL as typed.
 */
module YoutubeTranscript {
  import opened Common
  import opened Strings
  import opened VideoUrl
  import opened TranscriptExtraction

  // ---------------------------------------------------------------------------
  // SRT to plain text

  /** An SRT cue number or timing line, tested on the raw line. */
  predicate IsCueMarker(line: string) {
    IsDigitString(line) || Contains(line, "-->")
  }

  /** A paragraph of caption text: non-empty, with no whitespace at either end. */
  predicate IsTrimmedText(p: string) {
    p != [] && !IsSpace(p[0]) && !IsSpace(p[|p| - 1])
  }

  /** What one caption line contributes: nothing for a cue marker or a blank line, else the line stripped. */
  function KeptLine(line: string): (ps: seq<string>)
    ensures |ps| <= 1
    ensures ps != [] ==> ps[0] == Strip(line) && IsTrimmedText(ps[0])
  {
    if IsCueMarker(line) || Strip(line) == [] then [] else [Strip(line)]
  }

  /** A line contributes nothing exactly when it is a cue marker or all whitespace. */
  lemma KeptLineIff(line: string)
    ensures KeptLine(line) == [] <==> IsCueMarker(line) || AllSpace(line)
  {
    StripEmptyIff(line);
  }

  // ---------------------------------------------------------------------------
  // concatenating what each line contributes

  /** What `keep` makes of each line, concatenated in the order of the lines. */
  function ConcatMap(keep: string -> seq<string>, lines: seq<string>): seq<string>
    decreases |lines|
  {
    if lines == [] then []
    else ConcatMap(keep, lines[..|lines| - 1]) + keep(lines[|lines| - 1])
  }

  /** One more line adds what `keep` makes of it. */
  lemma ConcatMapSnoc(keep: string -> seq<string>, lines: seq<string>, line: string)
    ensures ConcatMap(keep, lines + [line]) == ConcatMap(keep, lines) + keep(line)
  {
    assert (lines + [line])[..|lines|] == lines;
  }

  /** Two runs of lines give the pieces of the first run followed by those of the second. */
  lemma {:induction false} ConcatMapAppend(keep: string -> seq<string>, a: seq<string>, b: seq<string>)
    ensures ConcatMap(keep, a + b) == ConcatMap(keep, a) + ConcatMap(keep, b)
    decreases |b|
  {
    if b == [] {
      assert a + b == a;
    } else {
      var b', last := b[..|b| - 1], b[|b| - 1];
      SnocSplit(a, b);
      ConcatMapSnoc(keep, a + b', last);
      ConcatMapSnoc(keep, b', last);
      ConcatMapAppend(keep, a, b');
      ConcatAssoc(ConcatMap(keep, a), ConcatMap(keep, b'), keep(last));
    }
  }

  /** Piece `i` is piece `k` of what `keep` makes of line `j`. */
  lemma {:induction false} ConcatMapSource(keep: string -> seq<string>, lines: seq<string>, i: nat) returns (j: nat, k: nat)
    requires i < |ConcatMap(keep, lines)|
    ensures j < |lines| && k < |keep(lines[j])| && keep(lines[j])[k] == ConcatMap(keep, lines)[i]
    decreases |lines|
  {
    var init := lines[..|lines| - 1];
    var ps := ConcatMap(keep, lines);
    if i < |ConcatMap(keep, init)| {
      j, k := ConcatMapSource(keep, init, i);
      assert lines[j] == init[j];
    } else {
      j, k := |lines| - 1, i - |ConcatMap(keep, init)|;
    }
  }

  /** When every line meeting `q` yields pieces meeting `p`, and every line meets `q`, every piece meets `p`. */
  lemma {:induction false} ConcatMapAll(keep: string -> seq<string>, lines: seq<string>,
                                        q: string -> bool, p: string -> bool)
    requires forall j :: 0 <= j < |lines| ==> q(lines[j])
    requires forall x, k :: q(x) && 0 <= k < |keep(x)| ==> p(keep(x)[k])
    ensures forall i :: 0 <= i < |ConcatMap(keep, lines)| ==> p(ConcatMap(keep, lines)[i])
  {
    forall i | 0 <= i < |ConcatMap(keep, lines)| ensures p(ConcatMap(keep, lines)[i]) {
      var j, k := ConcatMapSource(keep, lines, i);
    }
  }

  /** When no line yields more than one piece, there are no more pieces than lines. */
  lemma {:induction false} ConcatMapAtMostOne(keep: string -> seq<string>, lines: seq<string>)
    requires forall x :: |keep(x)| <= 1
    ensures |ConcatMap(keep, lines)| <= |lines|
    decreases |lines|
  {
    if lines != [] {
      ConcatMapAtMostOne(keep, lines[..|lines| - 1]);
    }
  }

  /** A non-empty run is its front followed by its last element, also after a prefix. */
  lemma SnocSplit<T>(a: seq<T>, b: seq<T>)
    requires b != []
    ensures b == b[..|b| - 1] + [b[|b| - 1]]
    ensures a + b == (a + b[..|b| - 1]) + [b[|b| - 1]]
  {
  }

  /** Concatenation is associative. */
  lemma ConcatAssoc<T>(x: seq<T>, y: seq<T>, z: seq<T>)
    ensures (x + y) + z == x + (y + z)
  {
  }

  // ---------------------------------------------------------------------------
  // the caption paragraphs

  /**
   The paragraphs the caption text keeps: each line that is neither a cue
   marker nor blank, stripped, in the order of the lines.
   */
  function SrtParagraphs(lines: seq<string>): (ps: seq<string>)
    ensures |ps| <= |lines|
    ensures forall i :: 0 <= i < |ps| ==> IsTrimmedText(ps[i])
  {
    ConcatMapAtMostOne(KeptLine, lines);
    ConcatMapAll(KeptLine, lines, _ => true, IsTrimmedText);
    ConcatMap(KeptLine, lines)
  }

  /** The paragraphs of two runs of lines are the paragraphs of the first run followed by those of the second. */
  lemma SrtParagraphsAppend(a: seq<string>, b: seq<string>)
    ensures SrtParagraphs(a + b) == SrtParagraphs(a) + SrtParagraphs(b)
  {
    ConcatMapAppend(KeptLine, a, b);
  }

  /** One more line adds what that line contributes. */
  lemma SrtParagraphsSnoc(lines: seq<string>, line: string)
    ensures SrtParagraphs(lines + [line]) == SrtParagraphs(lines) + KeptLine(line)
  {
    ConcatMapSnoc(KeptLine, lines, line);
  }

  /** A single line yields exactly what it contributes. */
  lemma SrtParagraphsOne(line: string)
    ensures SrtParagraphs([line]) == KeptLine(line)
  {
    ConcatMapSnoc(KeptLine, [], line);
    assert [] + [line] == [line];
  }

  /** Every paragraph is some kept line, stripped: nothing else reaches the caption text. */
  lemma SrtParagraphsFrom(lines: seq<string>, i: nat)
    requires i < |SrtParagraphs(lines)|
    ensures exists j :: 0 <= j < |lines| && KeptLine(lines[j]) == [SrtParagraphs(lines)[i]]
  {
    var j, k := ConcatMapSource(KeptLine, lines, i);
    assert KeptLine(lines[j]) == [SrtParagraphs(lines)[i]];
  }

  /** Paragraphs taken from break-free lines are break-free. */
  lemma SrtParagraphsNoLineBreak(lines: seq<string>)
    requires forall i :: 0 <= i < |lines| ==> NoLineBreak(lines[i])
    ensures forall i :: 0 <= i < |SrtParagraphs(lines)| ==> NoLineBreak(SrtParagraphs(lines)[i])
  {
    forall x, k | NoLineBreak(x) && 0 <= k < |KeptLine(x)| ensures NoLineBreak(KeptLine(x)[k]) {
      StripKeepsNoLineBreak(x);
    }
    ConcatMapAll(KeptLine, lines, NoLineBreak, NoLineBreak);
  }

  /** Stripping a line cannot introduce a line break. */
  lemma StripKeepsNoLineBreak(line: string)
    ensures NoLineBreak(line) ==> NoLineBreak(Strip(line))
  {
    var p := Strip(line);
    var k :| OccursAt(line, p, k) && AllSpace(line[..k]) && AllSpace(line[k + |p|..]);
    if NoLineBreak(line) {
      SliceKeepsNoLineBreak(line, p, k);
    }
  }

  /** Text found inside a break-free line is break-free. */
  lemma SliceKeepsNoLineBreak(s: string, p: string, k: int)
    requires OccursAt(s, p, k) && NoLineBreak(s)
    ensures NoLineBreak(p)
  {
    forall j | 0 <= j < |p| ensures !IsLineBreak(p[j]) {
      assert p[j] == s[k + j];
    }
  }

  /** The caption text `get_srt` returns: the kept paragraphs joined by single spaces, so one line with no whitespace at either end. */
  function SrtText(srt: string): (text: string)
    ensures NoLineBreak(text)
    ensures text == [] || IsTrimmedText(text)
  {
    var lines := SplitLines(srt);
    var ps := SrtParagraphs(lines);
    assert NoLineBreak(" ");
    SrtParagraphsNoLineBreak(lines);
    JoinNoLineBreak(" ", ps);
    if |ps| > 0 then
      JoinEnds(" ", ps);
      assert IsTrimmedText(ps[0]) && IsTrimmedText(ps[|ps| - 1]);
      Join(" ", ps)
    else
      Join(" ", ps)
  }

  /** Taking one more line adds what that line contributes. */
  lemma SrtParagraphsStep(lines: seq<string>, i: nat)
    requires i < |lines|
    ensures SrtParagraphs(lines[..i + 1]) == SrtParagraphs(lines[..i]) + KeptLine(lines[i])
  {
    assert lines[..i + 1] == lines[..i] + [lines[i]];
    SrtParagraphsSnoc(lines[..i], lines[i]);
  }

  /** The line-by-line loop of `get_srt`, computing the caption text. */
  method ExtractSrtText(srt: string) returns (text: string)
    ensures text == SrtText(srt)
  {
    var lines := SplitLines(srt);
    var paragraphs: seq<string> := [];
    var i := 0;
    while i < |lines|
      invariant 0 <= i <= |lines|
      invariant paragraphs == SrtParagraphs(lines[..i])
    {
      var line := lines[i];
      SrtParagraphsStep(lines, i);
      ghost var before := paragraphs;
      if !IsCueMarker(line) {
        var stripped := Strip(line);
        if stripped != [] {
          paragraphs := paragraphs + [stripped];
        }
      }
      assert paragraphs == before + KeptLine(line);
      assert paragraphs == SrtParagraphs(lines[..i + 1]);
      i := i + 1;
    }
    assert lines[..|lines|] == lines;
    text := Join(" ", paragraphs);
  }

  /** The ends of a join are the ends of its first and last parts. */
  lemma JoinEnds(sep: string, ps: seq<string>)
    requires |ps| > 0 && forall i :: 0 <= i < |ps| ==> ps[i] != []
    ensures var j := Join(sep, ps); |j| > 0 && j[0] == ps[0][0] && j[|j| - 1] == ps[|ps| - 1][|ps[|ps| - 1]| - 1]
  {
    if |ps| > 1 {
      var front, last := ps[..|ps| - 1], ps[|ps| - 1];
      SnocSplit([], ps);
      JoinSnoc(sep, front, last);
    }
  }

  /** Cue numbers and timing lines never reach the caption text: a cue of three lines yields its text line alone. */
  lemma OneCueYieldsItsText(n: string, timing: string, text: string)
    requires IsDigitString(n) && Contains(timing, "-->")
    requires !IsCueMarker(text) && Strip(text) != []
    ensures SrtParagraphs([n, timing, text]) == [Strip(text)]
  {
    ThreeLines(n, timing, text);
    SrtParagraphsOne(n);
    SrtParagraphsSnoc([n], timing);
    SrtParagraphsSnoc([n, timing], text);
  }

  /** The three-element run is built by appending one element at a time. */
  lemma ThreeLines<T>(x: T, y: T, z: T)
    ensures [x] + [y] == [x, y]
    ensures [x, y] + [z] == [x, y, z]
  {
  }

  // ---------------------------------------------------------------------------
  // captions, then speech-to-text

  /** `get_srt(url)` either obtains the SRT captions or raises. */
  datatype CaptionsOutcome = CaptionsSrt(srt: string) | CaptionsRaised(message: string)

  /** `transcript_with_whisper(url)` returns the transcript or a failure dict. */
  datatype WhisperOutcome = WhisperText(transcript: string) | WhisperFailed(message: string)

  /** The text of the exception raised when speech-to-text fails; it replaces the upstream message. */
  const FailoverMessage: string := "data: {\"status\": \"error\", \"message\": \"Failed to transcribe audio\"}\n\n"

  /**
   `generate_youtube_transcript`: invalid URL first, then captions, then
   speech-to-text; when both fail the result is an `Error` failure whose message
   is the fixed failover text.
   */
  function GenerateYoutubeTranscript(url: SourceUrl, captions: string -> CaptionsOutcome,
                                     whisper: string -> WhisperOutcome): (r: Result<Transcript, TranscriptError>)
    ensures !IsValidVideoId(GetVideoId(url.parsed)) <==> r == Err(TranscriptError(InvalidURL, InvalidUrlMessage))
    ensures r.Ok? ==> r.value.videoId == GetVideoId(url.parsed).value
    ensures IsValidVideoId(GetVideoId(url.parsed)) && captions(url.raw).CaptionsSrt? ==>
              r.Ok? && r.value.transcript == SrtText(captions(url.raw).srt)
    ensures IsValidVideoId(GetVideoId(url.parsed)) && captions(url.raw).CaptionsRaised? ==>
              && (whisper(url.raw).WhisperText? ==> r.Ok? && r.value.transcript == whisper(url.raw).transcript)
              && (whisper(url.raw).WhisperFailed? ==> r == Err(TranscriptError(Error, FailoverMessage)))
  {
    var id := GetVideoId(url.parsed);
    if !IsValidVideoId(id) then
      Err(TranscriptError(InvalidURL, InvalidUrlMessage))
    else
      match captions(url.raw)
      case CaptionsSrt(srt) => Ok(Transcript(id.value, SrtText(srt)))
      case CaptionsRaised(_) =>
        match whisper(url.raw)
        case WhisperText(t) => Ok(Transcript(id.value, t))
        case WhisperFailed(_) => Err(TranscriptError(Error, FailoverMessage))
  }

  /** An invalid URL consults neither source. */
  lemma InvalidUrlTriesNoSource(url: SourceUrl, c1: string -> CaptionsOutcome, c2: string -> CaptionsOutcome,
                                w1: string -> WhisperOutcome, w2: string -> WhisperOutcome)
    requires !IsValidVideoId(GetVideoId(url.parsed))
    ensures GenerateYoutubeTranscript(url, c1, w1) == GenerateYoutubeTranscript(url, c2, w2)
  {
  }

  /** When captions succeed, speech-to-text is never consulted. */
  lemma CaptionsSuccessSkipsWhisper(url: SourceUrl, captions: string -> CaptionsOutcome,
                                    w1: string -> WhisperOutcome, w2: string -> WhisperOutcome)
    requires captions(url.raw).CaptionsSrt?
    ensures GenerateYoutubeTranscript(url, captions, w1) == GenerateYoutubeTranscript(url, captions, w2)
  {
  }

  /** Only the last stage's failure is visible: the result does not depend on either upstream message. */
  lemma FailureHidesUpstreamMessages(url: SourceUrl, m1: string, m2: string, m3: string, m4: string)
    ensures GenerateYoutubeTranscript(url, _ => CaptionsRaised(m1), _ => WhisperFailed(m2))
         == GenerateYoutubeTranscript(url, _ => CaptionsRaised(m3), _ => WhisperFailed(m4))
  {
  }

  /** A result is successful exactly when the id is valid and one of the two sources delivers. */
  lemma SucceedsIffSomeSourceDelivers(url: SourceUrl, captions: string -> CaptionsOutcome, whisper: string -> WhisperOutcome)
    ensures GenerateYoutubeTranscript(url, captions, whisper).Ok? <==>
      IsValidVideoId(GetVideoId(url.parsed)) && (captions(url.raw).CaptionsSrt? || whisper(url.raw).WhisperText?)
  {
  }
}
